=== FILE: README.md ===
# alert-dbapi: a Dafny model of the alert REST API handler

`htdocs/api/v1/alert-dbapi.py` is the CGI handler of alerta's alert REST
API, version 1.8.0. For each request it:

- reads `REQUEST_METHOD` and, for PUT and POST, a JSON body that may name the
  real method in `_method`;
- searches `METHOD path` for five URL patterns: single GET, list GET, field
  PUT, tag PUT and DELETE;
- runs the matching block against the MongoDB `alerts` collection;
- upserts a per-operation request counter in the `status` collection;
- falls back to an `error` envelope when no block set a status;
- writes the envelope as JSON, wrapped as JSONP when a `callback` parameter
  is given.

This project models that handler as pure functions over immutable values:

- the collection is a map from alert id to document;
- the counters are a map from each of the five counters to `(count, totalTime)`,
  with the counter's selector document given by `Metrics.Selector`;
- the parsed query string is a map from name to its list of values;
- the STOMP notification becomes an abstract `Notice` event.

Modules, one per file:

- `Wrappers`: `Option`, `Result`.
- `Text`: character classes, ASCII `upper()`, last whitespace-free word.
- `Decimal`: zero-padded rendering and Python 2 `int()`.
- `Dates`: the `DateEncoder` millisecond format and its decoder.
- `Values`: JSON/BSON values and the `_id` to `id` rename.
- `Routing`: the `_method` override and the five patterns, each proved
  equivalent to what `re.search` means.
- `Query`: the list route's filter, sort, limit, details flag and
  `from-date` range.
- `Counts`: the aggregation loop, against independent reference counts.
- `Store`: `$set`, `$push`, `remove` and the projected `find_one`.
- `Metrics`: the request counters.
- `Api`: the route blocks in source order, the fallback and `Handle`, plus
  JSONP framing.
- `Put`: the field PUT of an existing alert, and what it leaves in the store.
- `Handling`: end-to-end properties of `Handle`, route by route.

How the model follows the code:

- The five route blocks are independent `if m:` blocks that run one after
  the other. `Api.Handle` runs them the same way. `Routing.RoutesExclusive`
  proves that at most one of them fires.
- An uncaught exception is `Aborted(reason)`. In the model every abort
  precedes the first write of its block, so an aborted request changes
  nothing. Two raises in the code come after the writes and are not
  modelled; they are listed under "Left out".
- A body that fails to parse leaves `data` an empty list (lines 62-65). A
  field or tag PUT then hands that list to the store as the modifier
  (`{'$set': []}` at line 249, `{'$push': []}` at line 307). The store
  refuses it, so the request aborts instead of reaching the fallback's
  error envelope.

## Model

| member | source | states |
|---|---|---|
| Routing.Override | htdocs/api/v1/alert-dbapi.py:58-67 | a parsed object body with a string `_method` replaces the method by its upper-cased text character by character; a non-string `_method` raises; otherwise the method is kept |
| Routing.ReadBody | htdocs/api/v1/alert-dbapi.py:59-65 | the body is read exactly for PUT and POST, and is then the request's body |
| Text.Upper | htdocs/api/v1/alert-dbapi.py:67 | `upper()` keeps the length and maps every character through ASCII upper-casing |
| Routing.AlertIdRoute | htdocs/api/v1/alert-dbapi.py:89-242 | the shared id matcher returns `id` iff `id` is in `[a-z0-9-]+` and the search finds the verb, `/alerta/api/v1/alerts/alert/` and `id` at the end |
| Routing.SingleGetRoute | htdocs/api/v1/alert-dbapi.py:89 | the matcher returns `id` iff `id` is in `[a-z0-9-]+` and the unanchored search finds `GET /alerta/api/v1/alerts/alert/<id>` ending at the end of the request or before a final newline |
| Routing.ListRoute | htdocs/api/v1/alert-dbapi.py:119 | the list matcher fires iff the search finds `GET /alerta/api/v1/alerts` at the end |
| Routing.FieldPutRoute | htdocs/api/v1/alert-dbapi.py:242 | the field PUT matcher returns `id` iff the search finds `PUT /alerta/api/v1/alerts/alert/<id>` at the end with `id` in `[a-z0-9-]+` |
| Routing.TagPutRoute | htdocs/api/v1/alert-dbapi.py:301 | the tag matcher returns `id` iff the search finds `PUT /alerta/api/v1/alerts/alert/<id>/tag` at the end |
| Routing.DeleteRoute | htdocs/api/v1/alert-dbapi.py:321 | the DELETE matcher returns `id` iff the search finds `DELETE /alerta/api/v1/alerts/alert/<id>` at the end with `id` any whitespace-free text, `/` included |
| Routing.SplitAtWord | htdocs/api/v1/alert-dbapi.py:89-321 | a pattern `verb word$` hits iff the request's last whitespace-free run is `word` and the text before it ends with `verb` |
| Routing.RoutesExclusive | htdocs/api/v1/alert-dbapi.py:89-321 | no request matches two of the five patterns; a `/tag` path never matches the field PUT |
| Api.Line | htdocs/api/v1/alert-dbapi.py:58-72 | the searched text is the possibly overridden method, a space and the path, or the request raises on a non-string `_method` |
| Api.InitialError | htdocs/api/v1/alert-dbapi.py:52-65 | the `error` variable starts as the body-parse message exactly when a read body failed to parse, and as `unknown error` otherwise |
| Query.RuleFor | htdocs/api/v1/alert-dbapi.py:127-136 | `id` gets the regex `^` + its first value only; another field with one value a case-insensitive regex of it; a field with several values `$in` of the whole list |
| Query.BuildFilter | htdocs/api/v1/alert-dbapi.py:123-136 | the reserved names `callback`, `_`, `sort-by`, `hide-alert-details`, `limit`, `from-date` never appear as filter keys |
| Query.FilterHas | htdocs/api/v1/alert-dbapi.py:123-136 | every visited non-reserved parameter puts its key (`_id` for `id`) in the filter |
| Query.FilterSource | htdocs/api/v1/alert-dbapi.py:123-136 | every filter key was written by some visited non-reserved parameter |
| Query.FilterLast | htdocs/api/v1/alert-dbapi.py:123-136 | the last parameter visited that writes a key decides that key's rule |
| Query.FilterFields | htdocs/api/v1/alert-dbapi.py:123-136 | per parameter: each ordinary field has its own rule; `id` alone gives `_id` the prefix regex; keys come only from the form |
| Query.FilterOrderIrrelevant | htdocs/api/v1/alert-dbapi.py:124 | unless both `id` and `_id` are given, the filter is the same for every iteration order of the query string |
| Query.IdCollision | htdocs/api/v1/alert-dbapi.py:127-132 | with both `id` and `_id`, the `_id` rule is that of whichever the loop visits last |
| Query.Direction | htdocs/api/v1/alert-dbapi.py:158-161 | the direction is -1 exactly for `createTime`, `receiveTime` and `lastReceiveTime`, +1 otherwise |
| Query.SortKeys | htdocs/api/v1/alert-dbapi.py:156-161 | one sort key per `sort-by` value, same field, same order, newest first exactly for the three time fields |
| Query.SortOrder | htdocs/api/v1/alert-dbapi.py:155-163 | without `sort-by` the sort is exactly `[(lastReceiveTime, -1)]`; with it, one key per value in order |
| Query.Limit | htdocs/api/v1/alert-dbapi.py:143-146 | `limit` defaults to 0, otherwise is `int()` of the first value |
| Decimal.ParseInt | htdocs/api/v1/alert-dbapi.py:144 | `int()` succeeds only on text holding a digit, and reads any non-empty all-digit text as its decimal value |
| Decimal.ParseRender | htdocs/api/v1/alert-dbapi.py:144 | `int()` reads back every rendered integer, negative ones included |
| Query.BuildListQuery | htdocs/api/v1/alert-dbapi.py:123-163 | the query raises iff `limit` is not an integer or `from-date` does not parse, reporting the `limit` error first since it is read first; a `from-date` adds `lastReceiveTime` in `[from, now)`, replacing any user rule on it and keeping every other rule; without it the filter is the loop's; limit and sort are the parameters'; details are hidden exactly when the first `hide-alert-details` value is `true` |
| Counts.Classify | htdocs/api/v1/alert-dbapi.py:197-210 | exactly the counter named by the severity gains one, and an unrecognised severity counts nowhere |
| Counts.Step | htdocs/api/v1/alert-dbapi.py:180-210 | one alert adds one to the total; the three status counts gain one between them iff its status is `OPEN`, `ACK` or `CLOSED`; severities move only for an OPEN alert, and then by one iff the severity is recognised; the renamed alert is appended to the details unless they are hidden |
| Counts.Tally | htdocs/api/v1/alert-dbapi.py:166-210 | the total is the number of alerts, the status counts sum to at most that, and there is one detail per alert unless hidden |
| Counts.TallyMeaning | htdocs/api/v1/alert-dbapi.py:166-210 | the loop's result: total = number of alerts; each status count = alerts with that status; each severity count = OPEN alerts with that severity; details = the alerts in order with `_id` renamed, or empty when hidden |
| Counts.TallyOneStatus | htdocs/api/v1/alert-dbapi.py:187-192 | each of the `OPEN`, `ACK` and `CLOSED` counters equals the independent count of alerts with that status |
| Counts.TallyOneSeverity | htdocs/api/v1/alert-dbapi.py:195-210 | each severity counter equals the independent count of OPEN alerts with that severity |
| Counts.TallyDetails | htdocs/api/v1/alert-dbapi.py:181-184 | the details list is every alert in order with `_id` renamed to `id`, or empty when details are hidden |
| Counts.Aggregate | htdocs/api/v1/alert-dbapi.py:166-210 | the loop as written computes the reference counts and the details list |
| Counts.StatusBound | htdocs/api/v1/alert-dbapi.py:187-192 | open + ack + closed is at most the total |
| Counts.SeverityBound | htdocs/api/v1/alert-dbapi.py:194-210 | the seven severity counts sum to at most the OPEN count, with equality iff every OPEN alert has a recognised severity |
| Counts.HideKeepsCounts | htdocs/api/v1/alert-dbapi.py:181-210 | hiding details changes neither the total nor any count, and empties the details list |
| Values.RenameId | htdocs/api/v1/alert-dbapi.py:98-99 | `id` takes `_id`'s value, `_id` is gone, every other field is kept, nothing is added |
| Values.RestoreRename | htdocs/api/v1/alert-dbapi.py:98-99 | for a document without its own `id`, the rename loses nothing: renaming back restores it |
| Store.SetFields | htdocs/api/v1/alert-dbapi.py:249 | `$set` is refused iff it names `_id`; otherwise the fields are the union, body values win, other fields are kept |
| Store.SetIdempotent | htdocs/api/v1/alert-dbapi.py:249 | applying the same `$set` twice is applying it once |
| Store.PushOne | htdocs/api/v1/alert-dbapi.py:257 | `$push` makes an absent field a one-element array, appends to an array, and is refused on any other value |
| Store.PushHistory | htdocs/api/v1/alert-dbapi.py:257 | the unchecked history push appends one entry to an array or absent `history`, leaves a non-array `history` as it is, and touches no other field |
| Store.PushTags | htdocs/api/v1/alert-dbapi.py:307 | a tag push is refused iff it names `_id` or a non-array field; otherwise each named field gets its value appended and the rest is kept |
| Store.PushHistoryAlert | htdocs/api/v1/alert-dbapi.py:257 | the unchecked history push on the collection keeps the ids, leaves every other alert as it was, and applies the history push to the matched alert |
| Store.Projected | htdocs/api/v1/alert-dbapi.py:260-270 | the notified alert has no `_id` and no `history`, has `id` = the alert id, and keeps every other field |
| Store.SetAlert | htdocs/api/v1/alert-dbapi.py:249-251 | `updatedExisting` holds iff the id exists; an absent id leaves the collection as it was |
| Store.PushTagsAlert | htdocs/api/v1/alert-dbapi.py:307 | a tag push on an absent id matches nothing and changes nothing; it is refused only on an existing alert |
| Store.PushTagsKeepsWf | htdocs/api/v1/alert-dbapi.py:307 | an accepted tag push keeps every alert well formed: `_id` unchanged, and `status`, `severity` and `type` still present |
| Store.Remove | htdocs/api/v1/alert-dbapi.py:326 | the id is gone and every other alert is kept unchanged |
| Metrics.Record | htdocs/api/v1/alert-dbapi.py:114-117 | the upsert adds one call and the elapsed milliseconds to its counter, creates it as `(1, ms)` when absent, and touches no other counter |
| Metrics.RecordCounts | htdocs/api/v1/alert-dbapi.py:114-117 | one upsert adds exactly one call in total over the five counters |
| Metrics.SelectorsDistinct | htdocs/api/v1/alert-dbapi.py:114-354 | the five selector documents are pairwise different, so each kind of request has its own counter |
| Metrics.RecordCommutes | htdocs/api/v1/alert-dbapi.py:335-354 | two upserts give the same counters in either order |
| Api.PutAlert | htdocs/api/v1/alert-dbapi.py:249-299 | the field PUT raises iff the store refuses the `$set` (an existing alert and a body naming `_id`); otherwise the collection stays well formed, a status is set and `update` gains a call |
| Api.SingleGetBlock | htdocs/api/v1/alert-dbapi.py:89-117 | without a match nothing changes; with one a status is set and `simple_get` gains a call; the store, notifications and error message are untouched |
| Api.ListBlock | htdocs/api/v1/alert-dbapi.py:119-240 | without a match nothing changes; with one the block raises iff the query does, and otherwise answers `ok`, counts under `complex_get` and writes nothing |
| Api.HistoryEntry | htdocs/api/v1/alert-dbapi.py:255-257 | the history entry has exactly the fields `status`, the body's new status, and `updateTime`, the UTC clock |
| Api.FieldPutBlock | htdocs/api/v1/alert-dbapi.py:242-299 | without a match nothing changes; a completed field PUT keeps the collection well formed, sets a status and counts under `update` |
| Api.TagBlock | htdocs/api/v1/alert-dbapi.py:301-319 | without a match nothing changes; a completed tag push keeps the collection well formed, sends no notification, counts under `update`, sets the error to the store's reply, and sets a status iff the push was acknowledged or one was already set |
| Api.DeleteBlock | htdocs/api/v1/alert-dbapi.py:321-338 | without a match nothing changes; the remove keeps the collection well formed, sends no notification, counts under `delete`, sets the error to the store's reply, and sets a status iff acknowledged or already set |
| Api.Writes | htdocs/api/v1/alert-dbapi.py:242-354 | after the three writing blocks and the fallback the collection is still well formed and some status is set |
| Put.PutResult | htdocs/api/v1/alert-dbapi.py:249-257 | the field PUT of an existing alert keeps the set of ids and every other alert unchanged |
| Put.PutFields | htdocs/api/v1/alert-dbapi.py:249-257 | the updated alert's fields are its old ones, the body's, and `history` when `status` is set; body values win, except `history`; other fields keep their values |
| Put.PutHistory | htdocs/api/v1/alert-dbapi.py:249-257 | the updated alert's `history` is the `$set`'s, with one entry appended when `status` is set and that history is an array or absent |
| Put.PutAlertSet | htdocs/api/v1/alert-dbapi.py:249-252 | without `status` in the body, the field PUT of an existing alert is the `$set` alone: `ok`, the store's acknowledgement, no notification, one `update` call |
| Put.PutAlertPush | htdocs/api/v1/alert-dbapi.py:249-270 | with `status` in the body: the `$set`, then the history push, then one notification of the projected alert with its `type` and id |
| Put.PutAlertFound | htdocs/api/v1/alert-dbapi.py:249-270 | the field PUT of an existing alert answers `ok`, counts under `update`, leaves the store as `PutResult` and notifies once iff the body sets `status` |
| Api.Fallback | htdocs/api/v1/alert-dbapi.py:340-354 | with no status set, the envelope becomes `error` with the `error` variable as message and the `bad` counter gains a call; with a status set nothing changes |
| Api.Handle | htdocs/api/v1/alert-dbapi.py:58-354 | a completed request always has a status and leaves the collection well formed; a non-string `_method` raises |
| Api.Frame | htdocs/api/v1/alert-dbapi.py:356-358 | with `callback` the content is its first value, `(`, the JSON and `);`; without it the JSON unchanged |
| Api.UnframeFrame | htdocs/api/v1/alert-dbapi.py:356-358 | the JSON text comes back out of the frame unchanged |
| Dates.Encode | htdocs/api/v1/alert-dbapi.py:37 | the encoded date is 24 characters: the seconds-precision ISO text, `.`, three digits of microsecond//1000, `Z` |
| Dates.DecodeEncode | htdocs/api/v1/alert-dbapi.py:37 | decoding an encoded date recovers it to the millisecond |
| Dates.EncodeDecode | htdocs/api/v1/alert-dbapi.py:37 | every text the decoder accepts for a valid date is exactly the encoder's text for it |
| Decimal.ValueOfPad | htdocs/api/v1/alert-dbapi.py:37 | reading a zero-padded rendering gives back the number |
| Decimal.PadOfValue | htdocs/api/v1/alert-dbapi.py:37 | rendering a digit string's value at its width gives back the string, leading zeros included |
| Handling.GetFound | htdocs/api/v1/alert-dbapi.py:89-117 | an existing id answers `ok`, total 1, the alert with `id` = the id in place of `_id`; the store is unchanged; `simple_get` gains a call |
| Handling.GetMissing | htdocs/api/v1/alert-dbapi.py:89-117 | an absent id answers `not found`, `alert` null, total 0; the store is unchanged |
| Handling.ListAnswers | htdocs/api/v1/alert-dbapi.py:119-240 | the list answers `ok` with total, status counts, severity counts and details of exactly the returned alerts; nothing is written; `complex_get` gains a call |
| Handling.ListRaises | htdocs/api/v1/alert-dbapi.py:143-153 | a bad `limit` or `from-date` makes the request raise |
| Handling.FieldPutFound | htdocs/api/v1/alert-dbapi.py:242-299 | an existing id answers `ok`; only the body's keys change (plus `history` when `status` is set); other fields and alerts are untouched; one notification iff `status` is in the body |
| Handling.FieldPutHistory | htdocs/api/v1/alert-dbapi.py:249-257 | the stored `history` is the one the `$set` leaves (the body's own `history` replaces the old one); when the body sets `status`, one `{status, updateTime}` entry is appended to it if it is an array or absent, and a non-array `history` stays as it is; without `status` nothing is appended |
| Handling.FieldPutRefused | htdocs/api/v1/alert-dbapi.py:249 | a field PUT of an existing alert whose body names `_id` raises, and nothing is written |
| Handling.FieldPutMissing | htdocs/api/v1/alert-dbapi.py:287-299 | an absent id answers `error` with "No existing alert with that ID found", the store unchanged and no notification |
| Handling.TagAnswers | htdocs/api/v1/alert-dbapi.py:301-354 | an acknowledged tag push answers `ok`; an unacknowledged one falls to the fallback with the store's reply as message and counts under both `update` and `bad` |
| Handling.TagRefused | htdocs/api/v1/alert-dbapi.py:307 | a tag push on an existing alert that names `_id` or a non-array field raises with that reason, and nothing is written |
| Handling.PutBodyUnparsable | htdocs/api/v1/alert-dbapi.py:59-65 | a field or tag PUT whose body failed to parse raises: the empty list left in `data` is not a modifier the store accepts |
| Handling.PutBodyNotRead | htdocs/api/v1/alert-dbapi.py:59-67 | a field or tag PUT route reached with a verb other than PUT or POST (such as `XPUT`) raises, because no body was read |
| Handling.DeleteAnswers | htdocs/api/v1/alert-dbapi.py:321-354 | an acknowledged remove answers `ok` (for absent ids too) and removes only that id; an unacknowledged one counts under both `delete` and `bad` |
| Handling.NoRoute | htdocs/api/v1/alert-dbapi.py:340-354 | with no route the answer is `error` with `unknown error`, or the body-parse message after an unparsable body; `bad` gains a call |
| Handling.CallsCounted | htdocs/api/v1/alert-dbapi.py:114-354 | every answered request adds one call to the counters, two for an unacknowledged tag push or remove |
| Handling.ReadOnlyRoutes | htdocs/api/v1/alert-dbapi.py:89-338 | only field PUT, tag and delete write to the store; only the field PUT notifies, at most once |
| Handling.DeleteThenGet | htdocs/api/v1/alert-dbapi.py:89-106 | after an acknowledged remove, a later single GET of the same id answers `not found`, whatever its own query string and clocks |

## Left out

- CGI plumbing is not modelled: environment variables, stdin, printed headers, logging, and loading the YAML configuration. That includes the `warning` member copied from it and the unbound `config` after an `IOError`.
- `urlsplit` and `parse_qs` are inputs, not modelled: the request arrives as a path and a map from name to a non-empty list of values.
- The iteration order of that map is an input, `World.order`.
- `json.loads` and `json.dumps` are not modelled. Bodies are a JSON object or unparsable. Non-object JSON bodies (arrays, strings, numbers) are not modelled; a JSON string would make `'_method' in data` a substring test. Only integers stand for JSON numbers.
- MongoDB is a map, not a query engine. The store's evaluation of `$regex`, `$options`, `$in`, the date range, `sort` and `limit` is the input `World.find`. The filter is kept as data.
- Dotted and `$`-prefixed field names in `$set` and `$push` bodies, and empty modifiers, are treated as plain fields. Which of them a given MongoDB version refuses is not modelled.
- Api.Handle: the model requires a well-formed collection. Every alert must have `_id` equal to its key and carry `status`, `severity` and `type`, and every alert `World.find` returns must have `_id` and `status`, plus `severity` when its status is `OPEN` (`Listing`); a non-OPEN alert without `severity` is allowed, as line 197 reads it only for OPEN alerts. The code assumes neither: the KeyErrors these assumptions hide are `alert['status']` at line 187 and `alert['severity']` at line 197 in the list loop, and `alert['type']` at line 263 in the field PUT.
- The raise at line 263 comes after the `$set` (249) and the history push (257) are written, so in the code that request fails after changing the store. The model has no outcome that both aborts and writes.
- After a failed connect (lines 271-277), `conn.get_host_and_port()` and `broker[0]` at lines 284-285 are outside any `try` and may raise, again after both writes. Only the delivered case is modelled.
- Store.SetAlert: a `$set` naming `_id` is refused only when the id exists. The store's behaviour on an unmatched update is version-dependent and is not modelled further.
- Store.PushTagsAlert: a tag push naming `_id` or a non-array field is refused only on an existing alert. MongoDB 2.x checks the modifier before matching and also refuses a `$push` on `_id` when no document matches; that version-dependent refusal is not modelled.
- The `ok` field of the store's acknowledgement of a tag push or remove is an input, `World.writeOk`. An unacknowledged write leaves the store unchanged.
- STOMP delivery is not modelled: connecting, sending, failover, the swallowed exceptions, the `persistent`/`repeat`/`expires` headers and the `expires` arithmetic. A notification is recorded as `Notice(alert, type, correlation-id)`.
- Clocks are inputs, read once per request: the elapsed milliseconds `int(diff * 1000)`, the `"%.3f"` latency text, the `localTime` text and `utcnow()`. The source reads the clock again in each block. Floating point is not modelled.
- `strptime` on `from-date` and the pytz time zones are the input `World.parseDate`.
- Dates.Encode: only naive `datetime` values are modelled. `isoformat` on time-zone-aware values appends an offset, and `date` values have no time part; neither is modelled.
- Text.Upper: only ASCII letters are upper-cased; Unicode case mapping is not modelled.
- The LDAP integration test file is not part of this model: it holds no alert logic.

=== FILE: api.dfy ===
/** One CGI request through `main()`: the `_method` override, the five route
    blocks run one after the other as the source runs them, the fallback
    error, and the JSONP frame around the serialised envelope. */
module Api {
  import opened Wrappers
  import opened Text
  import opened Dates
  import opened Values
  import opened Routing
  import opened Query
  import opened Counts
  import opened Store
  import opened Metrics

  /** A request as the CGI environment delivers it: `REQUEST_METHOD`, the
      path of `REQUEST_URI`, the parsed `QUERY_STRING` and the JSON body. */
  datatype Request = Request(verb: string, path: string, form: Form, body: Body)

  /** The alerts the store returns for a list query, already matched,
      sorted and limited. */
  type Listing = docs: seq<Doc> | AllCountable(docs)

  /** Everything the handler reads from outside the request and the store:
      one elapsed-milliseconds reading and its `%.3f` seconds text, the
      `localTime` text, `utcnow()`, the iteration order of the parsed query
      string, `strptime` on a `from-date`, the store's evaluation of a list
      query, and the `ok` flag of the store's acknowledgement of a tag push
      or a remove. */
  datatype World = World(
    elapsed: int,
    latency: string,
    localTime: string,
    utcNow: DateTime,
    order: seq<string>,
    parseDate: string -> Option<DateTime>,
    find: ListQuery -> Listing,
    writeOk: bool)

  const OkStatus := "ok"
  const NotFoundStatus := "not found"
  const ErrorStatus := "error"

  const UnknownError := "unknown error"
  const ParseFailure := "failed to parse json data in body"
  const NoSuchAlert := "No existing alert with that ID found"

  /** The value of the `error` variable: a text, or the store's reply to a
      write, which overwrites it (lines 249, 307, 326). */
  datatype Message = Plain(text: string) | StoreReply(ok: bool)

  /** `status['response']`. `alert` is absent, `null` or a document. */
  datatype Envelope = Envelope(
    status: Option<string>,
    total: Option<nat>,
    message: Option<Message>,
    alert: Option<Option<Doc>>,
    alerts: Option<Summary>,
    time: Option<string>,
    localTime: Option<string>)

  const Blank := Envelope(None, None, None, None, None, None, None)

  /** An abstract "notify requested" event: the projected alert, the
      `type` header and the `correlation-id` header of the STOMP message. */
  datatype Notice = Notice(alert: Doc, kind: Value, correlationId: string)

  /** Why the handler raised instead of answering. */
  datatype Abort =
    | MethodNotText          // `_method` is not a string: `.upper()` raises
    | BodyNotRead            // a PUT route on a method whose body was never read
    | BodyNotObject          // the store refuses a modifier built from `list()`
    | Refused(why: Refusal)  // the store refuses a modifier
    | LimitNotInt            // `int()` on the `limit` value raises
    | DateNotParsed          // `strptime` on the `from-date` value raises

  /** The handler's variables between two blocks. */
  datatype Stage = Stage(env: Envelope, db: Alerts, metrics: Metrics, notices: seq<Notice>, error: Message)

  /** What one request leaves behind. An aborted request has written
      nothing: in the model every abort precedes the first write of its
      block. The raises after the field PUT's writes (a missing `type`, a
      failed broker connect) are not modelled. */
  datatype Outcome =
    | Completed(env: Envelope, db: Alerts, metrics: Metrics, notices: seq<Notice>)
    | Aborted(why: Abort)

  /** The `time` and `localTime` members every block sets. */
  function Stamp(e: Envelope, w: World): Envelope {
    e.(time := Some(w.latency), localTime := Some(w.localTime))
  }

  /** Lines 89-117. */
  function SingleGetBlock(st: Stage, line: string, w: World): (r: Stage)
    requires Wf(st.db)
    ensures r.db == st.db && r.notices == st.notices && r.error == st.error
    ensures MatchSingleGet(line).None? ==> r == st
    ensures MatchSingleGet(line).Some? ==> r.metrics == Record(st.metrics, SimpleGet, w.elapsed)
    ensures MatchSingleGet(line).Some? ==> r.env.status.Some?
  {
    match MatchSingleGet(line)
    case None => st
    case Some(id) =>
      var env :=
        if id in st.db then st.env.(alert := Some(Some(RenameId(st.db[id]))), status := Some(OkStatus), total := Some(1))
        else st.env.(alert := Some(None), status := Some(NotFoundStatus), total := Some(0));
      st.(env := Stamp(env, w), metrics := Record(st.metrics, SimpleGet, w.elapsed))
  }

  /** Lines 119-240. */
  function ListBlock(st: Stage, line: string, form: Form, w: World): (r: Result<Stage, Abort>)
    requires WellFormed(form) && Enumerates(w.order, form)
    ensures !MatchList(line) ==> r == Ok(st)
    ensures MatchList(line) ==>
      (r.Fail? <==> BuildListQuery(form, w.order, w.parseDate, w.utcNow).Fail?)
    ensures r.Ok? ==> r.value.db == st.db && r.value.notices == st.notices && r.value.error == st.error
    ensures r.Ok? && MatchList(line) ==> r.value.metrics == Record(st.metrics, ComplexGet, w.elapsed)
    ensures r.Ok? && MatchList(line) ==> r.value.env.status == Some(OkStatus)
  {
    if !MatchList(line) then Ok(st)
    else match BuildListQuery(form, w.order, w.parseDate, w.utcNow)
      case Fail(BadLimit) => Fail(LimitNotInt)
      case Fail(BadFromDate) => Fail(DateNotParsed)
      case Ok(q) =>
        var docs := w.find(q);
        var summary := Tally(docs, q.hideDetails);
        var env := st.env.(alerts := Some(summary), status := Some(OkStatus), total := Some(summary.total));
        Ok(st.(env := Stamp(env, w), metrics := Record(st.metrics, ComplexGet, w.elapsed)))
  }

  /** The entry line 257 appends to `history`. */
  function HistoryEntry(newStatus: Value, w: World): (e: Value)
    ensures e.Obj? && e.fields.Keys == {"status", "updateTime"}
    ensures e.fields["status"] == newStatus && e.fields["updateTime"] == Time(w.utcNow)
  {
    Obj(map["status" := newStatus, "updateTime" := Time(w.utcNow)])
  }

  /** Lines 249-299 for one id and one parsed body: the `$set`, and for a
      body with `status` the history push and the notification. */
  function PutAlert(st: Stage, id: string, update: Doc, w: World): (r: Result<Stage, Abort>)
    requires Wf(st.db)
    ensures r.Fail? <==> id in st.db && StoreKey in update
    ensures r.Ok? ==> Wf(r.value.db)
    ensures r.Ok? ==> r.value.metrics == Record(st.metrics, Update, w.elapsed) && r.value.env.status.Some?
  {
    match SetAlert(st.db, id, update)
    case Fail(why) => Fail(Refused(why))
    case Ok((db1, existed)) =>
      SetKeepsWf(st.db, id, update);
      if !existed then
        var env := st.env.(status := Some(ErrorStatus), message := Some(Plain(NoSuchAlert)));
        Ok(st.(env := Stamp(env, w), db := db1, error := StoreReply(true),
               metrics := Record(st.metrics, Update, w.elapsed)))
      else if "status" !in update then
        Ok(st.(env := Stamp(st.env.(status := Some(OkStatus)), w), db := db1, error := StoreReply(true),
               metrics := Record(st.metrics, Update, w.elapsed)))
      else
        var db2 := PushHistoryAlert(db1, id, HistoryEntry(update["status"], w));
        PushHistoryKeepsWf(db1, id, HistoryEntry(update["status"], w));
        assert WfAlert(id, db2[id]);
        var notice := Notice(Projected(db2[id], id), db2[id]["type"], id);
        Ok(st.(env := Stamp(st.env.(status := Some(OkStatus)), w), db := db2, error := StoreReply(true),
               notices := st.notices + [notice], metrics := Record(st.metrics, Update, w.elapsed)))
  }

  /** Lines 242-299. */
  function FieldPutBlock(st: Stage, line: string, data: Option<Body>, w: World): (r: Result<Stage, Abort>)
    requires Wf(st.db)
    ensures MatchFieldPut(line).None? ==> r == Ok(st)
    ensures r.Ok? ==> Wf(r.value.db)
    ensures r.Ok? && MatchFieldPut(line).Some? ==>
      r.value.metrics == Record(st.metrics, Update, w.elapsed) && r.value.env.status.Some?
  {
    match MatchFieldPut(line)
    case None => Ok(st)
    case Some(id) =>
      match data
      case None => Fail(BodyNotRead)
      case Some(Unparsable) => Fail(BodyNotObject)
      case Some(Object(update)) => PutAlert(st, id, update, w)
  }

  /** Lines 301-319. */
  function TagBlock(st: Stage, line: string, data: Option<Body>, w: World): (r: Result<Stage, Abort>)
    requires Wf(st.db)
    ensures MatchTagPut(line).None? ==> r == Ok(st)
    ensures r.Ok? ==> Wf(r.value.db) && r.value.notices == st.notices
    ensures r.Ok? && MatchTagPut(line).Some? ==>
      && r.value.metrics == Record(st.metrics, Update, w.elapsed)
      && r.value.error == StoreReply(w.writeOk)
      && (r.value.env.status.Some? <==> w.writeOk || st.env.status.Some?)
  {
    match MatchTagPut(line)
    case None => Ok(st)
    case Some(id) =>
      match data
      case None => Fail(BodyNotRead)
      case Some(Unparsable) => Fail(BodyNotObject)
      case Some(Object(tags)) =>
        match PushTagsAlert(st.db, id, tags)
        case Fail(why) => Fail(Refused(why))
        case Ok(db1) =>
          PushTagsKeepsWf(st.db, id, tags);
          var env := if w.writeOk then st.env.(status := Some(OkStatus)) else st.env;
          Ok(st.(env := Stamp(env, w), db := if w.writeOk then db1 else st.db, error := StoreReply(w.writeOk),
                 metrics := Record(st.metrics, Update, w.elapsed)))
  }

  /** Lines 321-338. */
  function DeleteBlock(st: Stage, line: string, w: World): (r: Stage)
    requires Wf(st.db)
    ensures MatchDelete(line).None? ==> r == st
    ensures Wf(r.db) && r.notices == st.notices
    ensures MatchDelete(line).Some? ==>
      && r.metrics == Record(st.metrics, Delete, w.elapsed)
      && r.error == StoreReply(w.writeOk)
      && (r.env.status.Some? <==> w.writeOk || st.env.status.Some?)
  {
    match MatchDelete(line)
    case None => st
    case Some(id) =>
      var env := if w.writeOk then st.env.(status := Some(OkStatus)) else st.env;
      st.(env := Stamp(env, w), db := if w.writeOk then Remove(st.db, id) else st.db,
          error := StoreReply(w.writeOk), metrics := Record(st.metrics, Delete, w.elapsed))
  }

  /** Lines 340-354: a request no block answered is a bad request whose
      message is whatever the `error` variable holds by then. */
  function Fallback(st: Stage, w: World): (r: Stage)
    ensures r.db == st.db && r.notices == st.notices
    ensures st.env.status.Some? ==> r == st
    ensures st.env.status.None? ==>
      && r.env.status == Some(ErrorStatus) && r.env.message == Some(st.error)
      && r.metrics == Record(st.metrics, Bad, w.elapsed)
  {
    if st.env.status.Some? then st
    else
      st.(env := Stamp(st.env.(status := Some(ErrorStatus), message := Some(st.error)), w),
          metrics := Record(st.metrics, Bad, w.elapsed))
  }

  /** Lines 58-72: the request line the patterns are searched in, or why
      building it raised. */
  function Line(req: Request): (r: Result<string, Abort>)
    ensures r.Fail? ==> r.error == MethodNotText
    ensures r.Ok? ==> exists verb :: Override(req.verb, ReadBody(req.verb, req.body)) == Some(verb)
                                     && r.value == verb + " " + req.path
  {
    match Override(req.verb, ReadBody(req.verb, req.body))
    case None => Fail(MethodNotText)
    case Some(verb) => Ok(verb + " " + req.path)
  }

  /** The `error` variable before the route blocks run (lines 52, 65). */
  function InitialError(req: Request): (m: Message)
    ensures m == Plain(ParseFailure) <==> ReadBody(req.verb, req.body) == Some(Unparsable)
    ensures m != Plain(ParseFailure) ==> m == Plain(UnknownError)
  {
    if ReadBody(req.verb, req.body) == Some(Unparsable) then Plain(ParseFailure) else Plain(UnknownError)
  }

  /** The three writing blocks and the fallback, run after the two reads:
      the store stays well formed and some status is always set. */
  function Writes(st: Stage, line: string, data: Option<Body>, w: World): (r: Result<Stage, Abort>)
    requires Wf(st.db)
    ensures r.Ok? ==> Wf(r.value.db) && r.value.env.status.Some?
  {
    match FieldPutBlock(st, line, data, w)
    case Fail(e) => Fail(e)
    case Ok(st3) =>
      match TagBlock(st3, line, data, w)
      case Fail(e) => Fail(e)
      case Ok(st4) => Ok(Fallback(DeleteBlock(st4, line, w), w))
  }

  /** The handler's variables before the first block. */
  function Start(req: Request, db: Alerts, metrics: Metrics): (st: Stage)
    ensures st.db == db && st.metrics == metrics && st.notices == [] && st.env.status.None?
  {
    Stage(Blank, db, metrics, [], InitialError(req))
  }

  /** What the request leaves behind once the blocks have run or raised. */
  function Finish(r: Result<Stage, Abort>): (o: Outcome)
    ensures o.Completed? <==> r.Ok?
    ensures r.Ok? ==> o.db == r.value.db && o.env == r.value.env
                      && o.metrics == r.value.metrics && o.notices == r.value.notices
  {
    match r
    case Fail(e) => Aborted(e)
    case Ok(st) => Completed(st.env, st.db, st.metrics, st.notices)
  }

  /** `main()` from the body read to the fallback, on a well-formed store. */
  function Handle(req: Request, w: World, db: Alerts, metrics: Metrics): (r: Outcome)
    requires Wf(db)
    requires WellFormed(req.form) && Enumerates(w.order, req.form)
    ensures r.Completed? ==> Wf(r.db) && r.env.status.Some?
    ensures Line(req).Fail? ==> r == Aborted(MethodNotText)
  {
    match Line(req)
    case Fail(e) => Aborted(e)
    case Ok(line) =>
      var st1 := SingleGetBlock(Start(req, db, metrics), line, w);
      match ListBlock(st1, line, req.form, w)
      case Fail(e) => Aborted(e)
      case Ok(st2) => Finish(Writes(st2, line, ReadBody(req.verb, req.body), w))
  }

  /** Lines 356-358: with a `callback` parameter the JSON text is wrapped as
      a call of its first value. */
  function Frame(form: Form, json: string): (content: string)
    requires WellFormed(form)
    ensures "callback" !in form ==> content == json
    ensures "callback" in form ==>
      && StartsWith(content, form["callback"][0] + "(")
      && EndsWith(content, ");")
      && |content| == |form["callback"][0]| + |json| + 3
  {
    if "callback" in form then form["callback"][0] + "(" + json + ");" else json
  }

  /** The client's side of the frame: the JSON text back out of it. */
  function Unframe(form: Form, content: string): (json: Option<string>)
    requires WellFormed(form)
  {
    if "callback" !in form then Some(content)
    else
      var lead := form["callback"][0] + "(";
      if StartsWith(content, lead) && EndsWith(content, ");") && |content| >= |lead| + 2
      then Some(content[|lead|..|content| - 2]) else None
  }

  /** Framing loses nothing: the JSON text comes back out unchanged. */
  lemma UnframeFrame(form: Form, json: string)
    requires WellFormed(form)
    ensures Unframe(form, Frame(form, json)) == Some(json)
  {
    if "callback" in form {
      var lead := form["callback"][0] + "(";
      var content := Frame(form, json);
      assert content == lead + json + ");";
      assert content[|lead|..|content| - 2] == json;
    }
  }
}

=== FILE: counts.dfy ===
/** The list route's single pass over the alerts the store returned (lines
    165-228): the total, the status counts, the severity counts of the OPEN
    alerts, and the details list. */
module Counts {
  import opened Values

  const Open := Str("OPEN")
  const Ack := Str("ACK")
  const Closed := Str("CLOSED")

  const Critical := Str("CRITICAL")
  const Major := Str("MAJOR")
  const Minor := Str("MINOR")
  const Warning := Str("WARNING")
  const Normal := Str("NORMAL")
  const Inform := Str("INFORM")
  const Debug := Str("DEBUG")

  /** What the loop reads from an alert without raising: its `_id` (for the
      details), its `status`, and its `severity` when it is OPEN. */
  predicate Countable(d: Doc) {
    StoreKey in d && "status" in d && (d["status"] == Open ==> "severity" in d)
  }

  predicate AllCountable(docs: seq<Doc>) {
    forall i :: 0 <= i < |docs| ==> Countable(docs[i])
  }

  /** The severities the `elif` chain recognises. */
  predicate Recognised(v: Value) {
    v == Critical || v == Major || v == Minor || v == Warning || v == Normal || v == Inform || v == Debug
  }

  datatype StatusCounts = StatusCounts(open: nat, ack: nat, closed: nat)

  datatype SeverityCounts = SeverityCounts(critical: nat, major: nat, minor: nat, warning: nat,
                                           normal: nat, inform: nat, debug: nat)

  /** The `alerts` member of the list response, with the `total`. */
  datatype Summary = Summary(total: nat, status: StatusCounts, severity: SeverityCounts, details: seq<Doc>)

  const Zero := Summary(0, StatusCounts(0, 0, 0), SeverityCounts(0, 0, 0, 0, 0, 0, 0), [])

  function SeveritySum(c: SeverityCounts): nat {
    c.critical + c.major + c.minor + c.warning + c.normal + c.inform + c.debug
  }

  function Bump(hit: bool, n: nat): nat {
    if hit then n + 1 else n
  }

  /** Lines 195-210: the `elif` chain; an unrecognised severity counts nowhere. */
  function Classify(c: SeverityCounts, v: Value): (r: SeverityCounts)
    ensures SeveritySum(r) == SeveritySum(c) + (if Recognised(v) then 1 else 0)
    ensures r.critical == c.critical + (if v == Critical then 1 else 0)
    ensures r.major == c.major + (if v == Major then 1 else 0)
    ensures r.minor == c.minor + (if v == Minor then 1 else 0)
    ensures r.warning == c.warning + (if v == Warning then 1 else 0)
    ensures r.normal == c.normal + (if v == Normal then 1 else 0)
    ensures r.inform == c.inform + (if v == Inform then 1 else 0)
    ensures r.debug == c.debug + (if v == Debug then 1 else 0)
  {
    if v == Critical then c.(critical := c.critical + 1)
    else if v == Major then c.(major := c.major + 1)
    else if v == Minor then c.(minor := c.minor + 1)
    else if v == Warning then c.(warning := c.warning + 1)
    else if v == Normal then c.(normal := c.normal + 1)
    else if v == Inform then c.(inform := c.inform + 1)
    else if v == Debug then c.(debug := c.debug + 1)
    else c
  }

  /** One iteration of the loop at lines 180-210. Renaming `_id` leaves
      `status` and `severity` where they are, so the counts read `d`. */
  function Step(s: Summary, d: Doc, hidden: bool): (r: Summary)
    requires Countable(d)
    ensures r.total == s.total + 1
    ensures r.status.open + r.status.ack + r.status.closed == s.status.open + s.status.ack + s.status.closed
      + (if d["status"] == Open || d["status"] == Ack || d["status"] == Closed then 1 else 0)
    ensures d["status"] != Open ==> r.severity == s.severity
    ensures d["status"] == Open ==>
      SeveritySum(r.severity) == SeveritySum(s.severity) + (if Recognised(d["severity"]) then 1 else 0)
    ensures r.details == if hidden then s.details else s.details + [RenameId(d)]
  {
    var st := d["status"];
    Summary(
      s.total + 1,
      StatusCounts(Bump(st == Open, s.status.open), Bump(st == Ack, s.status.ack),
                   Bump(st == Closed, s.status.closed)),
      if st != Open then s.severity else Classify(s.severity, d["severity"]),
      if hidden then s.details else s.details + [RenameId(d)])
  }

  /** The loop as a fold over the returned sequence, in order. */
  function Tally(docs: seq<Doc>, hidden: bool): (r: Summary)
    requires AllCountable(docs)
    ensures r.total == |docs|
    ensures r.status.open + r.status.ack + r.status.closed <= |docs|
    ensures |r.details| == if hidden then 0 else |docs|
  {
    if |docs| == 0 then Zero
    else Step(Tally(docs[..|docs| - 1], hidden), docs[|docs| - 1], hidden)
  }

  /** Reference definitions, independent of the loop: how many alerts have
      a status, how many OPEN alerts have a severity. */
  function CountStatus(docs: seq<Doc>, st: Value): nat
    requires AllCountable(docs)
  {
    if |docs| == 0 then 0
    else (if docs[0]["status"] == st then 1 else 0) + CountStatus(docs[1..], st)
  }

  function CountSeverity(docs: seq<Doc>, sev: Value): nat
    requires AllCountable(docs)
  {
    if |docs| == 0 then 0
    else (if docs[0]["status"] == Open && docs[0]["severity"] == sev then 1 else 0)
         + CountSeverity(docs[1..], sev)
  }

  /** The details list: every alert, in order, `_id` renamed to `id`. */
  function Renamed(docs: seq<Doc>): (r: seq<Doc>)
    requires AllCountable(docs)
    ensures |r| == |docs|
    ensures forall i :: 0 <= i < |docs| ==> r[i] == RenameId(docs[i])
  {
    seq(|docs|, i requires 0 <= i < |docs| => RenameId(docs[i]))
  }

  lemma {:induction false} CountStatusAppend(docs: seq<Doc>, d: Doc, st: Value)
    requires AllCountable(docs) && Countable(d)
    ensures AllCountable(docs + [d])
    ensures CountStatus(docs + [d], st) == CountStatus(docs, st) + (if d["status"] == st then 1 else 0)
  {
    if |docs| > 0 {
      assert (docs + [d])[1..] == docs[1..] + [d];
      CountStatusAppend(docs[1..], d, st);
    }
  }

  lemma {:induction false} CountSeverityAppend(docs: seq<Doc>, d: Doc, sev: Value)
    requires AllCountable(docs) && Countable(d)
    ensures AllCountable(docs + [d])
    ensures CountSeverity(docs + [d], sev)
         == CountSeverity(docs, sev) + (if d["status"] == Open && d["severity"] == sev then 1 else 0)
  {
    if |docs| > 0 {
      assert (docs + [d])[1..] == docs[1..] + [d];
      CountSeverityAppend(docs[1..], d, sev);
    }
  }

  function StatusOf(docs: seq<Doc>): StatusCounts
    requires AllCountable(docs)
  {
    StatusCounts(CountStatus(docs, Open), CountStatus(docs, Ack), CountStatus(docs, Closed))
  }

  function SeverityOf(docs: seq<Doc>): SeverityCounts
    requires AllCountable(docs)
  {
    SeverityCounts(CountSeverity(docs, Critical), CountSeverity(docs, Major), CountSeverity(docs, Minor),
                   CountSeverity(docs, Warning), CountSeverity(docs, Normal), CountSeverity(docs, Inform),
                   CountSeverity(docs, Debug))
  }

  /** The fold computes the reference counts and the details list. */
  lemma TallyMeaning(docs: seq<Doc>, hidden: bool)
    requires AllCountable(docs)
    ensures Tally(docs, hidden).total == |docs|
    ensures Tally(docs, hidden).status == StatusOf(docs)
    ensures Tally(docs, hidden).severity == SeverityOf(docs)
    ensures Tally(docs, hidden).details == if hidden then [] else Renamed(docs)
  {
    TallyStatus(docs, hidden);
    TallySeverity(docs, hidden);
    TallyDetails(docs, hidden);
  }

  lemma TallyStatus(docs: seq<Doc>, hidden: bool)
    requires AllCountable(docs)
    ensures Tally(docs, hidden).total == |docs|
    ensures Tally(docs, hidden).status == StatusOf(docs)
  {
    TallyOneStatus(docs, hidden, Open);
    TallyOneStatus(docs, hidden, Ack);
    TallyOneStatus(docs, hidden, Closed);
  }

  /** The counter of one of the three counted statuses. */
  function PickStatus(c: StatusCounts, status: Value): nat
    requires status == Open || status == Ack || status == Closed
  {
    if status == Open then c.open else if status == Ack then c.ack else c.closed
  }

  lemma {:induction false} TallyOneStatus(docs: seq<Doc>, hidden: bool, status: Value)
    requires AllCountable(docs) && (status == Open || status == Ack || status == Closed)
    ensures PickStatus(Tally(docs, hidden).status, status) == CountStatus(docs, status)
  {
    if |docs| > 0 {
      var init := docs[..|docs| - 1];
      var d := docs[|docs| - 1];
      assert docs == init + [d];
      TallyOneStatus(init, hidden, status);
      CountStatusAppend(init, d, status);
    }
  }

  lemma TallySeverity(docs: seq<Doc>, hidden: bool)
    requires AllCountable(docs)
    ensures Tally(docs, hidden).severity == SeverityOf(docs)
  {
    TallyOneSeverity(docs, hidden, Critical);
    TallyOneSeverity(docs, hidden, Major);
    TallyOneSeverity(docs, hidden, Minor);
    TallyOneSeverity(docs, hidden, Warning);
    TallyOneSeverity(docs, hidden, Normal);
    TallyOneSeverity(docs, hidden, Inform);
    TallyOneSeverity(docs, hidden, Debug);
  }

  /** The counter of one recognised severity. */
  function Pick(c: SeverityCounts, sev: Value): nat
    requires Recognised(sev)
  {
    if sev == Critical then c.critical
    else if sev == Major then c.major
    else if sev == Minor then c.minor
    else if sev == Warning then c.warning
    else if sev == Normal then c.normal
    else if sev == Inform then c.inform
    else c.debug
  }

  lemma {:induction false} TallyOneSeverity(docs: seq<Doc>, hidden: bool, sev: Value)
    requires AllCountable(docs) && Recognised(sev)
    ensures Pick(Tally(docs, hidden).severity, sev) == CountSeverity(docs, sev)
  {
    if |docs| > 0 {
      var init := docs[..|docs| - 1];
      var d := docs[|docs| - 1];
      assert docs == init + [d];
      TallyOneSeverity(init, hidden, sev);
      CountSeverityAppend(init, d, sev);
    }
  }

  lemma {:induction false} TallyDetails(docs: seq<Doc>, hidden: bool)
    requires AllCountable(docs)
    ensures Tally(docs, hidden).details == if hidden then [] else Renamed(docs)
  {
    if |docs| > 0 {
      var init := docs[..|docs| - 1];
      TallyDetails(init, hidden);
      if !hidden {
        assert Renamed(docs) == Renamed(init) + [RenameId(docs[|docs| - 1])];
      }
    }
  }

  /** Lines 166-210 as written, a loop over the returned alerts. */
  method Aggregate(docs: seq<Doc>, hidden: bool) returns (s: Summary)
    requires AllCountable(docs)
    ensures s.total == |docs|
    ensures s.status == StatusOf(docs)
    ensures s.severity == SeverityOf(docs)
    ensures s.details == if hidden then [] else Renamed(docs)
  {
    s := Zero;
    var i := 0;
    while i < |docs|
      invariant 0 <= i <= |docs|
      invariant s == Tally(docs[..i], hidden)
    {
      assert docs[..i + 1][..i] == docs[..i];
      s := Step(s, docs[i], hidden);
      i := i + 1;
    }
    assert docs[..i] == docs;
    TallyMeaning(docs, hidden);
  }

  /** Every alert has at most one of the three statuses. */
  lemma {:induction false} StatusBound(docs: seq<Doc>)
    requires AllCountable(docs)
    ensures CountStatus(docs, Open) + CountStatus(docs, Ack) + CountStatus(docs, Closed) <= |docs|
  {
    if |docs| > 0 {
      StatusBound(docs[1..]);
    }
  }

  /** Every OPEN alert carries one of the seven recognised severities. */
  predicate OpenRecognised(docs: seq<Doc>)
    requires AllCountable(docs)
  {
    forall i :: 0 <= i < |docs| && docs[i]["status"] == Open ==> Recognised(docs[i]["severity"])
  }

  lemma OpenRecognisedSplit(docs: seq<Doc>)
    requires AllCountable(docs) && |docs| > 0
    ensures OpenRecognised(docs) <==>
      (docs[0]["status"] == Open ==> Recognised(docs[0]["severity"])) && OpenRecognised(docs[1..])
  {
    var rest := docs[1..];
    if !OpenRecognised(docs) && (docs[0]["status"] == Open ==> Recognised(docs[0]["severity"])) {
      var j :| 0 <= j < |docs| && docs[j]["status"] == Open && !Recognised(docs[j]["severity"]);
      assert rest[j - 1] == docs[j];
    }
    if !OpenRecognised(rest) {
      var j :| 0 <= j < |rest| && rest[j]["status"] == Open && !Recognised(rest[j]["severity"]);
      assert docs[j + 1] == rest[j];
    }
  }

  /** The severity total grows by one for an OPEN alert with a recognised
      severity and by nothing for any other alert. */
  lemma SeveritySplit(docs: seq<Doc>)
    requires AllCountable(docs) && |docs| > 0
    ensures SeveritySum(SeverityOf(docs)) == SeveritySum(SeverityOf(docs[1..]))
      + (if docs[0]["status"] == Open && Recognised(docs[0]["severity"]) then 1 else 0)
  {
  }

  /** Only OPEN alerts feed the severity counts, and each at most once: their
      sum is at most the OPEN count, with equality exactly when every OPEN
      alert has a recognised severity. */
  lemma {:induction false} SeverityBound(docs: seq<Doc>)
    requires AllCountable(docs)
    ensures SeveritySum(SeverityOf(docs)) <= CountStatus(docs, Open)
    ensures SeveritySum(SeverityOf(docs)) == CountStatus(docs, Open) <==> OpenRecognised(docs)
  {
    if |docs| > 0 {
      SeverityBound(docs[1..]);
      SeveritySplit(docs);
      OpenRecognisedSplit(docs);
    }
  }

  /** Hiding the details changes nothing but the details list. */
  lemma HideKeepsCounts(docs: seq<Doc>)
    requires AllCountable(docs)
    ensures Tally(docs, true).total == Tally(docs, false).total
    ensures Tally(docs, true).status == Tally(docs, false).status
    ensures Tally(docs, true).severity == Tally(docs, false).severity
    ensures Tally(docs, true).details == []
  {
    TallyMeaning(docs, true);
    TallyMeaning(docs, false);
  }
}

=== FILE: dates.dfy ===
/** Naive (UTC) timestamps and the millisecond ISO-8601 text the API's JSON
    encoder writes for them (`DateEncoder.default`). */
module Dates {
  import opened Wrappers
  import opened Decimal

  /** A naive `datetime.datetime`: the store hands back UTC times without a
      zone. */
  datatype DateTime = DateTime(year: int, month: int, day: int,
                               hour: int, minute: int, second: int, microsecond: int)

  predicate IsLeap(year: int) {
    year % 4 == 0 && (year % 100 != 0 || year % 400 == 0)
  }

  function DaysIn(year: int, month: int): int {
    if month == 2 then (if IsLeap(year) then 29 else 28)
    else if month == 4 || month == 6 || month == 9 || month == 11 then 30
    else 31
  }

  /** The ranges Python's `datetime` enforces on its fields. */
  predicate Valid(d: DateTime) {
    && 1 <= d.year <= 9999
    && 1 <= d.month <= 12
    && 1 <= d.day <= DaysIn(d.year, d.month)
    && 0 <= d.hour < 24
    && 0 <= d.minute < 60
    && 0 <= d.second < 60
    && 0 <= d.microsecond < 1000000
  }

  /** `d.replace(microsecond=0).isoformat()`: `YYYY-MM-DDTHH:MM:SS`. */
  function IsoSeconds(d: DateTime): (s: string)
    requires Valid(d)
    ensures |s| == 19
  {
    Joined(Joined(Pad(d.year, 4), '-', Pad(d.month, 2)), '-', Pad(d.day, 2)) + "T"
    + Joined(Joined(Pad(d.hour, 2), ':', Pad(d.minute, 2)), ':', Pad(d.second, 2))
  }

  /** Two fields with a separator between them. */
  function Joined(x: string, sep: char, y: string): (s: string)
    ensures |s| == |x| + 1 + |y|
    ensures s[..|x|] == x && s[|x|] == sep && s[|x| + 1..] == y
  {
    x + [sep] + y
  }

  /** The millisecond count the encoder prints: always three digits. */
  function Millis(d: DateTime): (ms: nat)
    requires Valid(d)
    ensures ms < 1000
    ensures ms * 1000 <= d.microsecond < ms * 1000 + 1000
  {
    d.microsecond / 1000
  }

  /** `DateEncoder.default` on a naive datetime: the seconds-precision ISO
      text, a dot, the zero-padded milliseconds and a `Z`. */
  function Encode(d: DateTime): (s: string)
    requires Valid(d)
    ensures |s| == 24
    ensures s[..19] == IsoSeconds(d)
    ensures s[19] == '.' && s[23] == 'Z'
    ensures AllDigits(s[20..23]) && Value(s[20..23]) == d.microsecond / 1000
  {
    var ms := Pad(Millis(d), 3);
    ValueOfPad(Millis(d), 3);
    var s := IsoSeconds(d) + "." + ms + "Z";
    assert s[20..23] == ms;
    s
  }

  /** `d` with its sub-millisecond part dropped: what survives encoding. */
  function TruncateToMillis(d: DateTime): (t: DateTime)
    requires Valid(d)
    ensures Valid(t)
  {
    d.(microsecond := Millis(d) * 1000)
  }

  /** The digit fields of the encoder's output format. */
  predicate DigitFields(s: string)
    requires |s| == 24
  {
    && AllDigits(s[0..4]) && AllDigits(s[5..7]) && AllDigits(s[8..10])
    && AllDigits(s[11..13]) && AllDigits(s[14..16]) && AllDigits(s[17..19])
    && AllDigits(s[20..23])
  }

  /** Reads the encoder's output format back into a timestamp. */
  function Decode(s: string): (r: Option<DateTime>)
    ensures r.Some? ==> |s| == 24 && s[19] == '.' && s[23] == 'Z'
    ensures r.Some? ==> r.value.microsecond % 1000 == 0
  {
    if |s| != 24 || s[4] != '-' || s[7] != '-' || s[10] != 'T' || s[13] != ':'
       || s[16] != ':' || s[19] != '.' || s[23] != 'Z' || !DigitFields(s) then None
    else
      Some(DateTime(Value(s[0..4]), Value(s[5..7]), Value(s[8..10]), Value(s[11..13]),
                    Value(s[14..16]), Value(s[17..19]), Value(s[20..23]) * 1000))
  }

  /** Decoding an encoded timestamp recovers it to the millisecond. */
  lemma DecodeEncode(d: DateTime)
    requires Valid(d)
    ensures Decode(Encode(d)) == Some(TruncateToMillis(d))
  {
    var s := Encode(d);
    assert s[0..4] == Pad(d.year, 4);
    assert s[5..7] == Pad(d.month, 2);
    assert s[8..10] == Pad(d.day, 2);
    assert s[11..13] == Pad(d.hour, 2);
    assert s[14..16] == Pad(d.minute, 2);
    assert s[17..19] == Pad(d.second, 2);
    ValueOfPad(d.year, 4);
    ValueOfPad(d.month, 2);
    ValueOfPad(d.day, 2);
    ValueOfPad(d.hour, 2);
    ValueOfPad(d.minute, 2);
    ValueOfPad(d.second, 2);
  }

  /** What a successful decode read: the separators and the digit fields. */
  lemma DecodeParts(s: string)
    requires Decode(s).Some?
    ensures |s| == 24
    ensures s[4] == '-' && s[7] == '-' && s[10] == 'T' && s[13] == ':' && s[16] == ':'
    ensures s[19] == '.' && s[23] == 'Z'
    ensures AllDigits(s[0..4]) && Decode(s).value.year == Value(s[0..4])
    ensures AllDigits(s[5..7]) && Decode(s).value.month == Value(s[5..7])
    ensures AllDigits(s[8..10]) && Decode(s).value.day == Value(s[8..10])
    ensures AllDigits(s[11..13]) && Decode(s).value.hour == Value(s[11..13])
    ensures AllDigits(s[14..16]) && Decode(s).value.minute == Value(s[14..16])
    ensures AllDigits(s[17..19]) && Decode(s).value.second == Value(s[17..19])
    ensures AllDigits(s[20..23]) && Decode(s).value.microsecond == Value(s[20..23]) * 1000
  {
  }

  /** Where each field sits in the seconds-precision text. */
  lemma IsoParts(d: DateTime)
    requires Valid(d)
    ensures var iso := IsoSeconds(d);
      && iso[0..4] == Pad(d.year, 4) && iso[4] == '-'
      && iso[5..7] == Pad(d.month, 2) && iso[7] == '-'
      && iso[8..10] == Pad(d.day, 2) && iso[10] == 'T'
      && iso[11..13] == Pad(d.hour, 2) && iso[13] == ':'
      && iso[14..16] == Pad(d.minute, 2) && iso[16] == ':'
      && iso[17..19] == Pad(d.second, 2)
  {
    var date := Joined(Joined(Pad(d.year, 4), '-', Pad(d.month, 2)), '-', Pad(d.day, 2));
    var time := Joined(Joined(Pad(d.hour, 2), ':', Pad(d.minute, 2)), ':', Pad(d.second, 2));
    var iso := IsoSeconds(d);
    assert iso == Joined(date, 'T', time);
    assert iso[0..4] == date[0..4] && iso[5..7] == date[5..7] && iso[8..10] == date[8..10];
    assert iso[11..13] == time[0..2] && iso[14..16] == time[3..5] && iso[17..19] == time[6..8];
  }

  /** The seconds-precision part of a decoded text is re-rendered as read. */
  lemma IsoOfDecode(s: string)
    requires Decode(s).Some? && Valid(Decode(s).value)
    ensures IsoSeconds(Decode(s).value) == s[..19]
  {
    var d := Decode(s).value;
    DecodeParts(s);
    IsoParts(d);
    PadOfValue(s[0..4]);
    PadOfValue(s[5..7]);
    PadOfValue(s[8..10]);
    PadOfValue(s[11..13]);
    PadOfValue(s[14..16]);
    PadOfValue(s[17..19]);
    SameIso(IsoSeconds(d), s);
  }

  /** Every text the decoder accepts for a valid timestamp is exactly what
      the encoder writes for it: the format has one spelling per instant. */
  lemma EncodeDecode(s: string)
    requires Decode(s).Some? && Valid(Decode(s).value)
    ensures Encode(Decode(s).value) == s
  {
    var d := Decode(s).value;
    DecodeParts(s);
    IsoOfDecode(s);
    assert Millis(d) == Value(s[20..23]);
    PadOfValue(s[20..23]);
    assert s == s[..19] + "." + s[20..23] + "Z";
  }

  /** Assembles the field-by-field agreement into equality of the texts. */
  lemma SameIso(iso: string, s: string)
    requires |iso| == 19 && |s| == 24
    requires iso[0..4] == s[0..4] && iso[5..7] == s[5..7] && iso[8..10] == s[8..10]
    requires iso[11..13] == s[11..13] && iso[14..16] == s[14..16] && iso[17..19] == s[17..19]
    requires iso[4] == s[4] && iso[7] == s[7] && iso[10] == s[10] && iso[13] == s[13] && iso[16] == s[16]
    ensures iso == s[..19]
  {
    Agree(iso, s, 0, 4);
    Agree(iso, s, 5, 7);
    Agree(iso, s, 8, 10);
    Agree(iso, s, 11, 13);
    Agree(iso, s, 14, 16);
    Agree(iso, s, 17, 19);
    assert forall i :: 0 <= i < 19 ==> iso[i] == s[i];
  }

  /** Two strings whose slices are asked to be equal, element-wise. */
  lemma Agree(a: string, b: string, lo: nat, hi: nat)
    requires lo <= hi <= |a| && hi <= |b|
    requires a[lo..hi] == b[lo..hi]
    ensures forall i :: lo <= i < hi ==> a[i] == b[i]
  {
    forall i | lo <= i < hi
      ensures a[i] == b[i]
    {
      assert a[i] == a[lo..hi][i - lo];
    }
  }
}

=== FILE: decimal.dfy ===
/** Decimal digit strings: zero-padded rendering (the `%0Nd` format) and
    reading back, and Python 2's `int()` on a string. */
module Decimal {
  import opened Wrappers
  import opened Text

  function Pow10(n: nat): (p: nat)
    ensures p >= 1
  {
    if n == 0 then 1 else 10 * Pow10(n - 1)
  }

  predicate AllDigits(s: string) {
    forall i :: 0 <= i < |s| ==> IsDigit(s[i])
  }

  function DigitChar(d: nat): (c: char)
    requires d < 10
    ensures IsDigit(c)
    ensures c as int - '0' as int == d
  {
    ('0' as int + d) as char
  }

  /** The number a string of decimal digits denotes. */
  function Value(s: string): (v: nat)
    requires AllDigits(s)
    ensures v < Pow10(|s|)
  {
    if |s| == 0 then 0
    else Value(s[..|s| - 1]) * 10 + (s[|s| - 1] as int - '0' as int)
  }

  /** `"%0*d" % (width, n)` for an `n` that fits in `width` digits. */
  function Pad(n: nat, width: nat): (s: string)
    requires n < Pow10(width)
    ensures |s| == width
    ensures AllDigits(s)
  {
    if width == 0 then ""
    else
      assert n / 10 < Pow10(width - 1);
      Pad(n / 10, width - 1) + [DigitChar(n % 10)]
  }

  /** Reading a padded rendering gives back the number. */
  lemma {:induction false} ValueOfPad(n: nat, width: nat)
    requires n < Pow10(width)
    ensures Value(Pad(n, width)) == n
  {
    if width > 0 {
      var s := Pad(n, width);
      assert s[..|s| - 1] == Pad(n / 10, width - 1);
      ValueOfPad(n / 10, width - 1);
    }
  }

  /** Rendering the value of a digit string at its own width gives back the
      string: leading zeros included. */
  lemma {:induction false} PadOfValue(s: string)
    requires AllDigits(s)
    ensures Pad(Value(s), |s|) == s
  {
    if |s| > 0 {
      var init := s[..|s| - 1];
      assert AllDigits(init);
      var v := Value(s);
      assert v / 10 == Value(init) && v % 10 == s[|s| - 1] as int - '0' as int;
      PadOfValue(init);
      assert s == init + [s[|s| - 1]];
    }
  }

  /** The number of digits `str(n)` has. */
  function Width(n: nat): (w: nat)
    ensures w >= 1
    ensures n < Pow10(w)
  {
    if n < 10 then 1 else 1 + Width(n / 10)
  }

  /** `str(n)` for an integer, with a leading `-` when negative. */
  function Render(n: int): string {
    if n < 0 then "-" + Pad(-n, Width(-n)) else Pad(n, Width(n))
  }

  /** Python's `s.strip()`. */
  function Strip(s: string): (t: string)
    ensures |t| > 0 ==> !IsSpace(t[0]) && !IsSpace(t[|t| - 1])
    decreases |s|
  {
    if |s| > 0 && IsSpace(s[0]) then Strip(s[1..])
    else if |s| > 0 && IsSpace(s[|s| - 1]) then Strip(s[..|s| - 1])
    else s
  }

  /** Leading whitespace removed only. */
  function StripLeft(s: string): (t: string)
    ensures |t| > 0 ==> !IsSpace(t[0])
  {
    if |s| > 0 && IsSpace(s[0]) then StripLeft(s[1..]) else s
  }

  /** Python 2's `int(s)` in base 10: surrounding whitespace is ignored, an
      optional sign may be followed by more whitespace, and at least one
      ASCII digit must follow; anything else raises `ValueError`, modelled as
      `None`. */
  function ParseInt(s: string): (r: Option<int>)
    ensures r.Some? ==> exists i :: 0 <= i < |s| && IsDigit(s[i])
    ensures |s| > 0 && AllDigits(s) ==> r == Some(Value(s))
  {
    var t := Strip(s);
    var neg := |t| > 0 && t[0] == '-';
    var body := if |t| > 0 && (t[0] == '-' || t[0] == '+') then StripLeft(t[1..]) else t;
    assert |s| > 0 && AllDigits(s) ==> body == s by {
      if |s| > 0 && AllDigits(s) {
        NoSpaceStrip(s);
      }
    }
    if |body| > 0 && AllDigits(body) then
      assert body[0] in s by { StripSubstring(s, body); }
      var v: int := Value(body);
      Some(if neg then -v else v)
    else None
  }

  /** Stripping keeps every surviving character from the input. */
  lemma StripSubstring(s: string, body: string)
    requires var t := Strip(s);
      body == (if |t| > 0 && (t[0] == '-' || t[0] == '+') then StripLeft(t[1..]) else t)
    ensures forall c :: c in body ==> c in s
  {
    StripKeeps(s);
    var t := Strip(s);
    if |t| > 0 && (t[0] == '-' || t[0] == '+') {
      StripLeftKeeps(t[1..]);
    }
  }

  lemma StripKeeps(s: string)
    ensures forall c :: c in Strip(s) ==> c in s
    decreases |s|
  {
    if |s| > 0 && IsSpace(s[0]) {
      StripKeeps(s[1..]);
    } else if |s| > 0 && IsSpace(s[|s| - 1]) {
      StripKeeps(s[..|s| - 1]);
    }
  }

  lemma StripLeftKeeps(s: string)
    ensures forall c :: c in StripLeft(s) ==> c in s
  {
    if |s| > 0 && IsSpace(s[0]) {
      StripLeftKeeps(s[1..]);
    }
  }

  /** `int(str(n)) == n`: the parser reads back every rendered integer. */
  lemma ParseRender(n: int)
    ensures ParseInt(Render(n)) == Some(n)
  {
    var m: nat := if n < 0 then -n else n;
    var digits := Pad(m, Width(m));
    ValueOfPad(m, Width(m));
    NoSpaceStrip(Render(n));
    if n < 0 {
      assert Render(n)[1..] == digits;
      NoSpaceStripLeft(digits);
    } else {
      assert Render(n)[0] == digits[0];
    }
  }

  /** A string without whitespace at either end is its own strip. */
  lemma NoSpaceStrip(s: string)
    requires forall i :: 0 <= i < |s| ==> !IsSpace(s[i])
    ensures Strip(s) == s
  {
  }

  lemma NoSpaceStripLeft(s: string)
    requires forall i :: 0 <= i < |s| ==> !IsSpace(s[i])
    ensures StripLeft(s) == s
  {
  }
}

=== FILE: handling.dfy ===
/** What one request does, route by route, stated over the whole handler:
    the five blocks run in sequence, and the exclusivity of the patterns
    makes exactly one of them (or the fallback) answer. */
module Handling {
  import opened Wrappers
  import opened Values
  import opened Routing
  import opened Query
  import opened Counts
  import opened Store
  import opened Metrics
  import opened Api
  import opened Put

  /** The caller's side of `Handle`: a well-formed store, a parsed query
      string and its iteration order. */
  predicate Ready(req: Request, w: World, db: Alerts) {
    Wf(db) && WellFormed(req.form) && Enumerates(w.order, req.form)
  }

  /** A request for neither read route goes straight to the writing blocks. */
  lemma PastReads(req: Request, w: World, db: Alerts, metrics: Metrics, line: string)
    requires Ready(req, w, db) && Line(req) == Ok(line)
    requires MatchSingleGet(line).None? && !MatchList(line)
    ensures Handle(req, w, db, metrics) ==
      Finish(Writes(Start(req, db, metrics), line, ReadBody(req.verb, req.body), w))
  {
  }

  /** With no writing route matched, only the fallback can act. */
  lemma WritesNone(st: Stage, line: string, data: Option<Body>, w: World)
    requires Wf(st.db)
    requires MatchFieldPut(line).None? && MatchTagPut(line).None? && MatchDelete(line).None?
    ensures Writes(st, line, data, w) == Ok(Fallback(st, w))
  {
  }

  /** A single GET: the block's stage is the answer. */
  lemma GetOnly(req: Request, w: World, db: Alerts, metrics: Metrics, line: string)
    requires Ready(req, w, db) && Line(req) == Ok(line) && MatchSingleGet(line).Some?
    ensures Handle(req, w, db, metrics) == Finish(Ok(SingleGetBlock(Start(req, db, metrics), line, w)))
  {
    RoutesExclusive(line);
    var st1 := SingleGetBlock(Start(req, db, metrics), line, w);
    WritesNone(st1, line, ReadBody(req.verb, req.body), w);
  }

  /** The list: the block's stage, or its raise, is the answer. */
  lemma ListOnly(req: Request, w: World, db: Alerts, metrics: Metrics, line: string)
    requires Ready(req, w, db) && Line(req) == Ok(line) && MatchList(line)
    ensures Handle(req, w, db, metrics) == Finish(ListBlock(Start(req, db, metrics), line, req.form, w))
  {
    RoutesExclusive(line);
    var st0 := Start(req, db, metrics);
    assert SingleGetBlock(st0, line, w) == st0;
    var r := ListBlock(st0, line, req.form, w);
    if r.Ok? {
      WritesNone(r.value, line, ReadBody(req.verb, req.body), w);
    }
  }

  /** A field PUT: the block's stage, or its raise, is the answer. */
  lemma FieldPutOnly(req: Request, w: World, db: Alerts, metrics: Metrics, line: string)
    requires Ready(req, w, db) && Line(req) == Ok(line) && MatchFieldPut(line).Some?
    ensures Handle(req, w, db, metrics) ==
      Finish(FieldPutBlock(Start(req, db, metrics), line, ReadBody(req.verb, req.body), w))
  {
    RoutesExclusive(line);
    PastReads(req, w, db, metrics, line);
  }

  /** A tag push: the block's stage after the fallback, or its raise. */
  lemma TagOnly(req: Request, w: World, db: Alerts, metrics: Metrics, line: string)
    requires Ready(req, w, db) && Line(req) == Ok(line) && MatchTagPut(line).Some?
    ensures var t := TagBlock(Start(req, db, metrics), line, ReadBody(req.verb, req.body), w);
      Handle(req, w, db, metrics) == Finish(if t.Ok? then Ok(Fallback(t.value, w)) else t)
  {
    RoutesExclusive(line);
    PastReads(req, w, db, metrics, line);
  }

  /** A remove: the block's stage after the fallback. */
  lemma DeleteOnly(req: Request, w: World, db: Alerts, metrics: Metrics, line: string)
    requires Ready(req, w, db) && Line(req) == Ok(line) && MatchDelete(line).Some?
    ensures Handle(req, w, db, metrics) ==
      Finish(Ok(Fallback(DeleteBlock(Start(req, db, metrics), line, w), w)))
  {
    RoutesExclusive(line);
    PastReads(req, w, db, metrics, line);
  }

  /** No route: the fallback alone. */
  lemma NoneOnly(req: Request, w: World, db: Alerts, metrics: Metrics, line: string)
    requires Ready(req, w, db) && Line(req) == Ok(line)
    requires MatchSingleGet(line).None? && !MatchList(line) && MatchFieldPut(line).None?
    requires MatchTagPut(line).None? && MatchDelete(line).None?
    ensures Handle(req, w, db, metrics) == Finish(Ok(Fallback(Start(req, db, metrics), w)))
  {
    PastReads(req, w, db, metrics, line);
    WritesNone(Start(req, db, metrics), line, ReadBody(req.verb, req.body), w);
  }

  /** Lines 89-106, an alert that exists: `ok`, one result, the alert with
      `id` in place of `_id`; the store is only read. */
  lemma GetFound(req: Request, w: World, db: Alerts, metrics: Metrics, line: string, id: string)
    requires Ready(req, w, db)
    requires Line(req) == Ok(line) && MatchSingleGet(line) == Some(id) && id in db
    ensures var r := Handle(req, w, db, metrics);
      && r.Completed?
      && r.env.status == Some(OkStatus) && r.env.total == Some(1)
      && r.env.alert == Some(Some(RenameId(db[id])))
      && r.env.alert.value.value[PublicKey] == Str(id)
      && r.db == db && r.notices == []
      && r.metrics == Record(metrics, SimpleGet, w.elapsed)
  {
    GetOnly(req, w, db, metrics, line);
  }

  /** Lines 89-106, an absent alert: `not found`, `alert` null, no result. */
  lemma GetMissing(req: Request, w: World, db: Alerts, metrics: Metrics, line: string, id: string)
    requires Ready(req, w, db)
    requires Line(req) == Ok(line) && MatchSingleGet(line) == Some(id) && id !in db
    ensures var r := Handle(req, w, db, metrics);
      && r.Completed?
      && r.env.status == Some(NotFoundStatus) && r.env.total == Some(0)
      && r.env.alert == Some(None)
      && r.db == db && r.notices == []
      && r.metrics == Record(metrics, SimpleGet, w.elapsed)
  {
    GetOnly(req, w, db, metrics, line);
  }

  /** Lines 119-240: the list answers with the counts of exactly the alerts
      the store returned for the built query, and writes nothing. */
  lemma ListAnswers(req: Request, w: World, db: Alerts, metrics: Metrics, line: string, q: ListQuery)
    requires Ready(req, w, db)
    requires Line(req) == Ok(line) && MatchList(line)
    requires BuildListQuery(req.form, w.order, w.parseDate, w.utcNow) == Ok(q)
    ensures var r := Handle(req, w, db, metrics);
      var docs := w.find(q);
      && r.Completed?
      && r.env.status == Some(OkStatus) && r.env.total == Some(|docs|)
      && r.env.alerts.Some?
      && r.env.alerts.value.status == StatusOf(docs)
      && r.env.alerts.value.severity == SeverityOf(docs)
      && r.env.alerts.value.details == (if q.hideDetails then [] else Renamed(docs))
      && r.db == db && r.notices == []
      && r.metrics == Record(metrics, ComplexGet, w.elapsed)
  {
    ListOnly(req, w, db, metrics, line);
    TallyMeaning(w.find(q), q.hideDetails);
  }

  /** Lines 143-153: a `limit` `int()` rejects or a `from-date` `strptime`
      rejects makes the handler raise before anything is written. */
  lemma ListRaises(req: Request, w: World, db: Alerts, metrics: Metrics, line: string)
    requires Ready(req, w, db)
    requires Line(req) == Ok(line) && MatchList(line)
    requires BuildListQuery(req.form, w.order, w.parseDate, w.utcNow).Fail?
    ensures Handle(req, w, db, metrics).Aborted?
    ensures Limit(req.form).None? ==> Handle(req, w, db, metrics) == Aborted(LimitNotInt)
  {
    ListOnly(req, w, db, metrics, line);
  }

  /** The field PUT of an existing alert, through all the blocks. */
  lemma FieldPutShape(req: Request, w: World, db: Alerts, metrics: Metrics, line: string, id: string, update: Doc)
    requires Ready(req, w, db)
    requires Line(req) == Ok(line) && MatchFieldPut(line) == Some(id)
    requires ReadBody(req.verb, req.body) == Some(Object(update))
    requires id in db && StoreKey !in update
    ensures var r := Handle(req, w, db, metrics);
      && r.Completed?
      && r.env.status == Some(OkStatus)
      && r.metrics == Record(metrics, Update, w.elapsed)
      && r.db == PutResult(db, id, update, w)
      && id in r.db && "type" in r.db[id]
      && r.notices == (if "status" in update then [Notice(Projected(r.db[id], id), r.db[id]["type"], id)] else [])
  {
    FieldPutOnly(req, w, db, metrics, line);
    assert FieldPutBlock(Start(req, db, metrics), line, Some(Object(update)), w) ==
      PutAlert(Start(req, db, metrics), id, update, w);
    PutAlertFound(Start(req, db, metrics), id, update, w);
  }

  /** Lines 242-254 and 287, an existing alert: `ok`; the body's keys are
      overwritten, every other field and every other alert is untouched, and
      exactly one notification is requested when the body sets `status`. */
  lemma FieldPutFound(req: Request, w: World, db: Alerts, metrics: Metrics, line: string, id: string, update: Doc)
    requires Ready(req, w, db)
    requires Line(req) == Ok(line) && MatchFieldPut(line) == Some(id)
    requires ReadBody(req.verb, req.body) == Some(Object(update))
    requires id in db && StoreKey !in update
    ensures var r := Handle(req, w, db, metrics);
      && r.Completed?
      && r.env.status == Some(OkStatus)
      && r.metrics == Record(metrics, Update, w.elapsed)
      && r.db.Keys == db.Keys
      && (forall k :: k in db && k != id ==> r.db[k] == db[k])
      && r.db[id].Keys == db[id].Keys + update.Keys + (if "status" in update then {HistoryField} else {})
      && (forall f :: f in update && f != HistoryField ==> r.db[id][f] == update[f])
      && (forall f :: f in db[id] && f !in update && f != HistoryField ==> r.db[id][f] == db[id][f])
      && r.notices == (if "status" in update then [Notice(Projected(r.db[id], id), r.db[id]["type"], id)] else [])
  {
    FieldPutShape(req, w, db, metrics, line, id, update);
    PutFields(db, id, update, w);
  }

  /** Lines 249 and 257: the history is whatever the `$set` left (the body's
      own `history` replaces the stored one), and when the body sets `status`
      one `{status, updateTime}` entry is appended to it if it is an array
      or absent; a `history` that is not an array stays as it is, since the
      push is not checked. */
  lemma FieldPutHistory(req: Request, w: World, db: Alerts, metrics: Metrics, line: string, id: string, update: Doc)
    requires Ready(req, w, db)
    requires Line(req) == Ok(line) && MatchFieldPut(line) == Some(id)
    requires ReadBody(req.verb, req.body) == Some(Object(update))
    requires id in db && StoreKey !in update
    ensures Handle(req, w, db, metrics).Completed?
    ensures id in Handle(req, w, db, metrics).db
    ensures HistoryKept(db[id], update, Handle(req, w, db, metrics).db[id], w)
  {
    FieldPutShape(req, w, db, metrics, line, id, update);
    PutHistory(db, id, update, w);
  }

  /** Lines 288-290, an absent alert: `error` with its message, the store
      unchanged, no notification. */
  lemma FieldPutMissing(req: Request, w: World, db: Alerts, metrics: Metrics, line: string, id: string, update: Doc)
    requires Ready(req, w, db)
    requires Line(req) == Ok(line) && MatchFieldPut(line) == Some(id)
    requires ReadBody(req.verb, req.body) == Some(Object(update))
    requires id !in db
    ensures var r := Handle(req, w, db, metrics);
      && r.Completed?
      && r.env.status == Some(ErrorStatus) && r.env.message == Some(Plain(NoSuchAlert))
      && r.db == db && r.notices == []
      && r.metrics == Record(metrics, Update, w.elapsed)
  {
    FieldPutOnly(req, w, db, metrics, line);
  }

  /** Lines 60-65 with 249 or 307: a body that failed to parse leaves `data`
      an empty list, which the field or tag PUT hands to the store as its
      modifier; the store refuses it and the request raises. */
  lemma PutBodyUnparsable(req: Request, w: World, db: Alerts, metrics: Metrics, line: string)
    requires Ready(req, w, db) && Line(req) == Ok(line)
    requires MatchFieldPut(line).Some? || MatchTagPut(line).Some?
    requires ReadBody(req.verb, req.body) == Some(Unparsable)
    ensures Handle(req, w, db, metrics) == Aborted(BodyNotObject)
  {
    RoutesExclusive(line);
    if MatchFieldPut(line).Some? {
      FieldPutOnly(req, w, db, metrics, line);
    } else {
      TagOnly(req, w, db, metrics, line);
    }
  }

  /** Lines 59 with 246 or 304: a method other than PUT and POST (`XPUT`, say)
      can still match a PUT pattern, since the search is unanchored; `data`
      was never assigned and the request raises. */
  lemma PutBodyNotRead(req: Request, w: World, db: Alerts, metrics: Metrics, line: string)
    requires Ready(req, w, db) && Line(req) == Ok(line)
    requires MatchFieldPut(line).Some? || MatchTagPut(line).Some?
    requires ReadBody(req.verb, req.body).None?
    ensures Handle(req, w, db, metrics) == Aborted(BodyNotRead)
  {
    RoutesExclusive(line);
    if MatchFieldPut(line).Some? {
      FieldPutOnly(req, w, db, metrics, line);
    } else {
      TagOnly(req, w, db, metrics, line);
    }
  }

  /** Line 249: a `$set` naming `_id` on an existing alert is refused, and
      with `safe=True` the request raises before anything is written. */
  lemma FieldPutRefused(req: Request, w: World, db: Alerts, metrics: Metrics, line: string, id: string, update: Doc)
    requires Ready(req, w, db)
    requires Line(req) == Ok(line) && MatchFieldPut(line) == Some(id)
    requires ReadBody(req.verb, req.body) == Some(Object(update))
    requires id in db && StoreKey in update
    ensures Handle(req, w, db, metrics) == Aborted(Refused(ModifiesId))
  {
    FieldPutOnly(req, w, db, metrics, line);
  }

  /** Line 307: a tag push on an existing alert that names `_id` or a field
      holding something other than an array is refused, and the request
      raises before anything is written. */
  lemma TagRefused(req: Request, w: World, db: Alerts, metrics: Metrics, line: string, id: string, tags: Doc)
    requires Ready(req, w, db)
    requires Line(req) == Ok(line) && MatchTagPut(line) == Some(id)
    requires ReadBody(req.verb, req.body) == Some(Object(tags))
    requires id in db && TagsRefused(db[id], tags)
    ensures Handle(req, w, db, metrics) == Aborted(Refused(if StoreKey in tags then ModifiesId else NotAnArray))
  {
    TagOnly(req, w, db, metrics, line);
  }

  /** Lines 301-319 and 340-354: an acknowledged tag push answers `ok`; an
      unacknowledged one is answered by the fallback with the store's reply
      as its message, and counts as both a PUT and a bad request. */
  lemma TagAnswers(req: Request, w: World, db: Alerts, metrics: Metrics, line: string, id: string, tags: Doc)
    requires Ready(req, w, db)
    requires Line(req) == Ok(line) && MatchTagPut(line) == Some(id)
    requires ReadBody(req.verb, req.body) == Some(Object(tags))
    requires PushTagsAlert(db, id, tags).Ok?
    ensures var r := Handle(req, w, db, metrics);
      && r.Completed? && r.notices == []
      && (w.writeOk ==>
            && r.env.status == Some(OkStatus)
            && r.db == PushTagsAlert(db, id, tags).value
            && r.metrics == Record(metrics, Update, w.elapsed))
      && (!w.writeOk ==>
            && r.env.status == Some(ErrorStatus) && r.env.message == Some(StoreReply(false))
            && r.db == db
            && r.metrics == Record(Record(metrics, Update, w.elapsed), Bad, w.elapsed))
  {
    TagOnly(req, w, db, metrics, line);
  }

  /** Lines 321-338 and 340-354: an acknowledged remove answers `ok` (even
      for an id that was never there) and leaves every other alert; an
      unacknowledged one falls through to the fallback. */
  lemma DeleteAnswers(req: Request, w: World, db: Alerts, metrics: Metrics, line: string, id: string)
    requires Ready(req, w, db)
    requires Line(req) == Ok(line) && MatchDelete(line) == Some(id)
    ensures var r := Handle(req, w, db, metrics);
      && r.Completed? && r.notices == []
      && (w.writeOk ==>
            && r.env.status == Some(OkStatus)
            && id !in r.db && r.db.Keys == db.Keys - {id}
            && (forall k :: k in r.db ==> r.db[k] == db[k])
            && r.metrics == Record(metrics, Delete, w.elapsed))
      && (!w.writeOk ==>
            && r.env.status == Some(ErrorStatus) && r.env.message == Some(StoreReply(false))
            && r.db == db
            && r.metrics == Record(Record(metrics, Delete, w.elapsed), Bad, w.elapsed))
  {
    DeleteOnly(req, w, db, metrics, line);
  }

  /** No route: the fallback answers `error` with `unknown error`, or with
      the body-parse message after a body `json.loads` rejected, and counts
      a bad request. */
  lemma NoRoute(req: Request, w: World, db: Alerts, metrics: Metrics, line: string)
    requires Ready(req, w, db)
    requires Line(req) == Ok(line)
    requires MatchSingleGet(line).None? && !MatchList(line) && MatchFieldPut(line).None?
    requires MatchTagPut(line).None? && MatchDelete(line).None?
    ensures var r := Handle(req, w, db, metrics);
      && r.Completed?
      && r.env.status == Some(ErrorStatus)
      && r.env.message == Some(Plain(
           if ReadBody(req.verb, req.body) == Some(Unparsable) then ParseFailure else UnknownError))
      && r.db == db && r.notices == []
      && r.metrics == Record(metrics, Bad, w.elapsed)
  {
    NoneOnly(req, w, db, metrics, line);
  }

  /** Every answered request is counted once, and a tag push or remove the
      store did not acknowledge twice. */
  lemma CallsCounted(req: Request, w: World, db: Alerts, metrics: Metrics, line: string)
    requires Ready(req, w, db)
    requires Line(req) == Ok(line)
    requires Handle(req, w, db, metrics).Completed?
    ensures Calls(Handle(req, w, db, metrics).metrics) == Calls(metrics) + 1 +
      (if (MatchTagPut(line).Some? || MatchDelete(line).Some?) && !w.writeOk then 1 else 0)
  {
    RoutesExclusive(line);
    if MatchSingleGet(line).Some? {
      GetOnly(req, w, db, metrics, line);
      RecordCounts(metrics, SimpleGet, w.elapsed);
    } else if MatchList(line) {
      ListOnly(req, w, db, metrics, line);
      RecordCounts(metrics, ComplexGet, w.elapsed);
    } else if MatchFieldPut(line).Some? {
      FieldPutOnly(req, w, db, metrics, line);
      RecordCounts(metrics, Update, w.elapsed);
    } else if MatchTagPut(line).Some? {
      TagOnly(req, w, db, metrics, line);
      RecordCounts(metrics, Update, w.elapsed);
      RecordCounts(Record(metrics, Update, w.elapsed), Bad, w.elapsed);
    } else if MatchDelete(line).Some? {
      DeleteOnly(req, w, db, metrics, line);
      RecordCounts(metrics, Delete, w.elapsed);
      RecordCounts(Record(metrics, Delete, w.elapsed), Bad, w.elapsed);
    } else {
      NoneOnly(req, w, db, metrics, line);
      RecordCounts(metrics, Bad, w.elapsed);
    }
  }

  /** Only the field PUT, the tag push and the remove write to the store,
      and only the field PUT requests a notification. */
  lemma ReadOnlyRoutes(req: Request, w: World, db: Alerts, metrics: Metrics, line: string)
    requires Ready(req, w, db)
    requires Line(req) == Ok(line)
    requires Handle(req, w, db, metrics).Completed?
    ensures MatchFieldPut(line).None? && MatchTagPut(line).None? && MatchDelete(line).None? ==>
      Handle(req, w, db, metrics).db == db
    ensures MatchFieldPut(line).None? ==> Handle(req, w, db, metrics).notices == []
    ensures |Handle(req, w, db, metrics).notices| <= 1
  {
    RoutesExclusive(line);
    if MatchSingleGet(line).Some? {
      GetOnly(req, w, db, metrics, line);
    } else if MatchList(line) {
      ListOnly(req, w, db, metrics, line);
    } else if MatchFieldPut(line).Some? {
      FieldPutOnly(req, w, db, metrics, line);
    } else if MatchTagPut(line).Some? {
      TagOnly(req, w, db, metrics, line);
    } else if MatchDelete(line).Some? {
      DeleteOnly(req, w, db, metrics, line);
    } else {
      NoneOnly(req, w, db, metrics, line);
    }
  }

  /** A remove the store acknowledged is seen by the next single GET of the
      same id, whatever its query string and clocks: `not found`. */
  lemma DeleteThenGet(del: Request, get: Request, w: World, w2: World, db: Alerts, metrics: Metrics,
                      l1: string, l2: string, id: string)
    requires Ready(del, w, db) && w.writeOk
    requires Line(del) == Ok(l1) && MatchDelete(l1) == Some(id)
    requires WellFormed(get.form) && Enumerates(w2.order, get.form)
    requires Line(get) == Ok(l2) && MatchSingleGet(l2) == Some(id)
    ensures var r := Handle(del, w, db, metrics);
      && r.Completed?
      && Handle(get, w2, r.db, r.metrics).Completed?
      && Handle(get, w2, r.db, r.metrics).env.status == Some(NotFoundStatus)
  {
    DeleteAnswers(del, w, db, metrics, l1, id);
    var r := Handle(del, w, db, metrics);
    GetMissing(get, w2, r.db, r.metrics, l2, id);
  }
}

=== FILE: metrics.dfy ===
/** The `status` collection's request counters: every handled request
    upserts its counter with `$inc` of one call and its elapsed milliseconds
    (lines 114-117, 237-240, 296-299, 316-319, 335-338, 351-354). */
module Metrics {
  /** The five counters the API maintains. */
  datatype Meter = SimpleGet | ComplexGet | Update | Delete | Bad

  /** The selector document of one counter. */
  datatype MetricKey = MetricKey(group: string, name: string, kind: string, title: string, description: string)

  /** The selector each counter is upserted under; the field PUT and the
      tag PUT share the `update` counter. */
  function Selector(m: Meter): MetricKey {
    match m
    case SimpleGet => MetricKey("requests", "simple_get", "counter", "Simple GET requests",
                                "Requests to the alert status API")
    case ComplexGet => MetricKey("requests", "complex_get", "timer", "Complex GET requests",
                                 "Requests to the alert status API")
    case Update => MetricKey("requests", "update", "timer", "PUT requests",
                             "Requests to update alerts via the API")
    case Delete => MetricKey("requests", "delete", "timer", "DELETE requests",
                             "Requests to delete alerts via the API")
    case Bad => MetricKey("requests", "bad", "timer", "Bad requests", "Failed requests to the API")
  }

  /** The five selectors differ in the first letter of `name`, so they are five distinct
      documents in the `status` collection. */
  lemma SelectorsDistinct(a: Meter, b: Meter)
    ensures Selector(a) == Selector(b) <==> a == b
  {
    if a != b {
      assert Selector(a).name[0] != Selector(b).name[0];
    }
  }

  /** The two fields `$inc` maintains. */
  datatype Counter = Counter(count: nat, totalTime: int)

  type Metrics = map<Meter, Counter>

  /** `update(key, {'$inc': {'count': 1, 'totalTime': ms}}, upsert=True)`:
      an absent counter starts from the increments themselves. */
  function Record(m: Metrics, key: Meter, ms: int): (r: Metrics)
    ensures r.Keys == m.Keys + {key}
    ensures key !in m ==> r[key] == Counter(1, ms)
    ensures key in m ==> r[key] == Counter(m[key].count + 1, m[key].totalTime + ms)
    ensures forall k :: k in m && k != key ==> r[k] == m[k]
  {
    var c := if key in m then m[key] else Counter(0, 0);
    m[key := Counter(c.count + 1, c.totalTime + ms)]
  }

  /** The calls a counter has seen; zero before its first upsert. */
  function Count(m: Metrics, key: Meter): nat {
    if key in m then m[key].count else 0
  }

  function TotalTime(m: Metrics, key: Meter): int {
    if key in m then m[key].totalTime else 0
  }

  /** All API calls the five counters have seen. */
  function Calls(m: Metrics): nat {
    Count(m, SimpleGet) + Count(m, ComplexGet) + Count(m, Update) + Count(m, Delete) + Count(m, Bad)
  }

  /** One upsert adds one call and `ms` to its own counter and to nothing
      else, so the five counters together gain exactly one call. */
  lemma RecordCounts(m: Metrics, key: Meter, ms: int)
    ensures forall k :: Count(Record(m, key, ms), k) == Count(m, k) + (if k == key then 1 else 0)
    ensures forall k :: TotalTime(Record(m, key, ms), k) == TotalTime(m, k) + (if k == key then ms else 0)
    ensures Calls(Record(m, key, ms)) == Calls(m) + 1
  {
  }

  /** The order of two upserts does not matter: `$inc` commutes. */
  lemma RecordCommutes(m: Metrics, a: Meter, x: int, b: Meter, y: int)
    ensures Record(Record(m, a, x), b, y) == Record(Record(m, b, y), a, x)
  {
    var l := Record(Record(m, a, x), b, y);
    var r := Record(Record(m, b, y), a, x);
    assert l.Keys == r.Keys;
    forall k | k in l
      ensures l[k] == r[k]
    {
    }
  }
}

=== FILE: put.dfy ===
/** The field PUT of an existing alert, block by block: what the `$set`
    and the history push leave in the store (lines 242-299). */
module Put {
  import opened Wrappers
  import opened Values
  import opened Store
  import opened Metrics
  import opened Api

  /** The `history` a document has after `$set` of `update`, if any. */
  function HistoryAfterSet(d: Doc, update: Doc): Option<Value> {
    if HistoryField in update then Some(update[HistoryField])
    else if HistoryField in d then Some(d[HistoryField])
    else None
  }

  /** The store after a field PUT of an existing alert. */
  function PutResult(db: Alerts, id: string, update: Doc, w: World): (r: Alerts)
    requires id in db && StoreKey !in update
    ensures r.Keys == db.Keys
    ensures forall k :: k in db && k != id ==> r[k] == db[k]
  {
    var db1 := SetAlert(db, id, update).value.0;
    if "status" in update then PushHistoryAlert(db1, id, HistoryEntry(update["status"], w)) else db1
  }

  /** The fields of the updated alert. */
  lemma PutFields(db: Alerts, id: string, update: Doc, w: World)
    requires Wf(db) && id in db && StoreKey !in update
    ensures var db2 := PutResult(db, id, update, w);
      && db2.Keys == db.Keys
      && (forall k :: k in db && k != id ==> db2[k] == db[k])
      && db2[id].Keys == db[id].Keys + update.Keys + (if "status" in update then {HistoryField} else {})
      && (forall f :: f in update && f != HistoryField ==> db2[id][f] == update[f])
      && (forall f :: f in db[id] && f !in update && f != HistoryField ==> db2[id][f] == db[id][f])
  {
  }

  /** How the field PUT treats `history`: one entry appended at the end when
      the body sets `status`, nothing otherwise; a `history` that is not an
      array stays as it is. */
  predicate HistoryKept(before: Doc, update: Doc, after: Doc, w: World) {
    var h := HistoryAfterSet(before, update);
    && ("status" !in update ==>
          (HistoryField in after <==> h.Some?) && (h.Some? ==> after[HistoryField] == h.value))
    && ("status" in update && h.None? ==>
          HistoryField in after && after[HistoryField] == Arr([HistoryEntry(update["status"], w)]))
    && ("status" in update && h.Some? && h.value.Arr? ==>
          HistoryField in after && after[HistoryField] == Arr(h.value.items + [HistoryEntry(update["status"], w)]))
    && ("status" in update && h.Some? && !h.value.Arr? ==>
          HistoryField in after && after[HistoryField] == h.value)
  }

  /** The history of the updated alert. */
  lemma PutHistory(db: Alerts, id: string, update: Doc, w: World)
    requires Wf(db) && id in db && StoreKey !in update
    ensures id in PutResult(db, id, update, w)
    ensures HistoryKept(db[id], update, PutResult(db, id, update, w)[id], w)
  {
  }

  /** The store part of the field PUT on an existing alert, for a body without `status`:
      the `$set` alone. */
  lemma PutAlertSet(st: Stage, id: string, update: Doc, w: World)
    requires Wf(st.db)
    requires id in st.db && StoreKey !in update && "status" !in update
    ensures PutAlert(st, id, update, w) ==
      Ok(st.(env := Stamp(st.env.(status := Some(OkStatus)), w), db := SetAlert(st.db, id, update).value.0,
             error := StoreReply(true), metrics := Record(st.metrics, Update, w.elapsed)))
  {
  }

  /** The store part of the field PUT on an existing alert, for a body with `status`:
      the `$set`, the history push and one notification. */
  lemma PutAlertPush(st: Stage, id: string, update: Doc, w: World)
    requires Wf(st.db)
    requires id in st.db && StoreKey !in update && "status" in update
    ensures var db1 := SetAlert(st.db, id, update).value.0;
      var db2 := PushHistoryAlert(db1, id, HistoryEntry(update["status"], w));
      && id in db2 && "type" in db2[id]
      && PutAlert(st, id, update, w) ==
           Ok(st.(env := Stamp(st.env.(status := Some(OkStatus)), w), db := db2, error := StoreReply(true),
                  notices := st.notices + [Notice(Projected(db2[id], id), db2[id]["type"], id)],
                  metrics := Record(st.metrics, Update, w.elapsed)))
  {
  }

  /** The store part of the field PUT on an existing alert. */
  lemma PutAlertFound(st: Stage, id: string, update: Doc, w: World)
    requires Wf(st.db)
    requires id in st.db && StoreKey !in update
    ensures var r := PutAlert(st, id, update, w);
      var db2 := PutResult(st.db, id, update, w);
      && r.Ok?
      && r.value.env.status == Some(OkStatus)
      && r.value.metrics == Record(st.metrics, Update, w.elapsed)
      && r.value.db == db2
      && id in db2 && "type" in db2[id]
      && r.value.notices == st.notices +
           (if "status" in update then [Notice(Projected(db2[id], id), db2[id]["type"], id)] else [])
  {
    if "status" in update {
      PutAlertPush(st, id, update, w);
    } else {
      PutAlertSet(st, id, update, w);
    }
  }
}

=== FILE: query.dfy ===
/** The list route's query construction (lines 123-163): the filter the
    store is asked to match, the sort specification, the limit and the
    details flag, all built from the parsed query string. The filter is kept
    as data: the store's regular-expression semantics are not evaluated. */
module Query {
  import opened Wrappers
  import opened Decimal
  import opened Dates

  /** `urlparse.parse_qs(QUERY_STRING)`: each name maps to its values in the
      order given. */
  type Form = map<string, seq<string>>

  /** `parse_qs` drops blank values, so no name maps to an empty list. */
  predicate WellFormed(form: Form) {
    forall k :: k in form ==> |form[k]| > 0
  }

  /** The control parameters the filter loop skips. */
  const Reserved: set<string> := {"callback", "_", "sort-by", "hide-alert-details", "limit", "from-date"}

  const IdParam := "id"
  const IdKey := "_id"
  const LastReceiveTime := "lastReceiveTime"

  /** One match rule of the store query. */
  datatype Rule =
    | Pattern(regex: string, ignoreCase: bool)     // {'$regex': regex} plus {'$options': 'i'}
    | AnyOf(values: seq<string>)                   // {'$in': values}
    | Between(since: DateTime, until: DateTime)     // {'$gte': from, '$lt': until}

  /** The store query: field name to match rule. */
  type Filter = map<string, Rule>

  /** The query key a parameter constrains: `id` constrains `_id`. */
  function Target(field: string): string {
    if field == IdParam then IdKey else field
  }

  /** Lines 127-136: `id` becomes an anchored prefix regex on its first value;
      another field with one value a case-insensitive regex; a field with
      several values a membership test on all of them. */
  function RuleFor(form: Form, field: string): (r: Rule)
    requires field in form && |form[field]| > 0
    ensures field == IdParam ==> r == Pattern("^" + form[field][0], false)
    ensures field != IdParam && |form[field]| == 1 ==> r == Pattern(form[field][0], true)
    ensures field != IdParam && |form[field]| > 1 ==> r == AnyOf(form[field])
  {
    if field == IdParam then Pattern("^" + form[field][0], false)
    else if |form[field]| == 1 then Pattern(form[field][0], true)
    else AnyOf(form[field])
  }

  /** `order` lists every parameter name of `form` once: the order in which
      `for field in form` visits them. */
  predicate Enumerates(order: seq<string>, form: Form) {
    && (forall i :: 0 <= i < |order| ==> order[i] in form)
    && (forall k :: k in form ==> k in order)
    && (forall i, j :: 0 <= i < j < |order| ==> order[i] != order[j])
  }

  /** Position `i` of `order` is the last one writing its query key. */
  ghost predicate LastWriter(order: seq<string>, i: int)
    requires 0 <= i < |order|
  {
    forall j :: i < j < |order| ==> Target(order[j]) != Target(order[i])
  }

  /** Lines 123-136: the filter loop, visiting the fields in `order`; a
      later field writing the same key replaces an earlier one. */
  function BuildFilter(form: Form, order: seq<string>): (r: Filter)
    requires WellFormed(form)
    requires forall i :: 0 <= i < |order| ==> order[i] in form
    ensures forall k :: k in r ==> k !in Reserved
  {
    if |order| == 0 then map[]
    else
      var p := BuildFilter(form, order[..|order| - 1]);
      var field := order[|order| - 1];
      if field in Reserved then p else p[Target(field) := RuleFor(form, field)]
  }

  /** Every ordinary visited field writes its key. */
  lemma {:induction false} FilterHas(form: Form, order: seq<string>, i: nat)
    requires WellFormed(form)
    requires forall j :: 0 <= j < |order| ==> order[j] in form
    requires i < |order| && order[i] !in Reserved
    ensures Target(order[i]) in BuildFilter(form, order)
  {
    if i < |order| - 1 {
      var init := order[..|order| - 1];
      assert init[i] == order[i];
      FilterHas(form, init, i);
    }
  }

  /** Every key of the filter was written by some ordinary visited field. */
  lemma {:induction false} FilterSource(form: Form, order: seq<string>, k: string) returns (i: nat)
    requires WellFormed(form)
    requires forall j :: 0 <= j < |order| ==> order[j] in form
    requires k in BuildFilter(form, order)
    ensures i < |order| && order[i] !in Reserved && Target(order[i]) == k
  {
    var init := order[..|order| - 1];
    var field := order[|order| - 1];
    if field !in Reserved && Target(field) == k {
      i := |order| - 1;
    } else {
      i := FilterSource(form, init, k);
      assert init[i] == order[i];
    }
  }

  /** The last field writing a key decides its rule. */
  lemma {:induction false} FilterLast(form: Form, order: seq<string>, i: nat)
    requires WellFormed(form)
    requires forall j :: 0 <= j < |order| ==> order[j] in form
    requires i < |order| && order[i] !in Reserved && LastWriter(order, i)
    ensures Target(order[i]) in BuildFilter(form, order)
    ensures BuildFilter(form, order)[Target(order[i])] == RuleFor(form, order[i])
  {
    if i < |order| - 1 {
      var init := order[..|order| - 1];
      assert init[i] == order[i];
      assert LastWriter(init, i) by {
        forall j | i < j < |init|
          ensures Target(init[j]) != Target(init[i])
        {
          assert init[j] == order[j];
        }
      }
      FilterLast(form, init, i);
      assert Target(order[|order| - 1]) != Target(order[i]);
    }
  }

  /** The filter read per parameter: reserved names never appear, every
      ordinary field gets its own rule, and `id` gets the prefix rule unless
      a literal `_id` parameter competes for the same key. */
  lemma FilterFields(form: Form, order: seq<string>)
    requires WellFormed(form) && Enumerates(order, form)
    ensures var r := BuildFilter(form, order);
      && (forall k :: k in r ==> k !in Reserved)
      && (forall f :: f in form && f !in Reserved && f != IdParam && f != IdKey ==>
            f in r && r[f] == RuleFor(form, f))
      && (IdParam in form && IdKey !in form ==>
            IdKey in r && r[IdKey] == Pattern("^" + form[IdParam][0], false))
      && (IdParam !in form && IdKey in form ==> IdKey in r && r[IdKey] == RuleFor(form, IdKey))
      && (forall k :: k in r ==> (k == IdKey && IdParam in form) || (k in form && k != IdParam))
  {
    FilterRules(form, order);
    FilterKeys(form, order);
  }

  /** The rule each parameter that is the only writer of its key gets. */
  lemma FilterRules(form: Form, order: seq<string>)
    requires WellFormed(form) && Enumerates(order, form)
    ensures var r := BuildFilter(form, order);
      forall f :: f in form && f !in Reserved && f != IdParam && (f != IdKey || IdParam !in form) ==>
        f in r && r[f] == RuleFor(form, f)
    ensures IdParam in form && IdKey !in form ==>
      var r := BuildFilter(form, order);
      IdKey in r && r[IdKey] == RuleFor(form, IdParam)
  {
    var r := BuildFilter(form, order);
    forall f | f in form && f !in Reserved && f != IdParam && (f != IdKey || IdParam !in form)
      ensures f in r && r[f] == RuleFor(form, f)
    {
      var i := IndexOf(order, f);
      OnlyWriter(form, order, i);
      FilterLast(form, order, i);
    }
    if IdParam in form && IdKey !in form {
      var i := IndexOf(order, IdParam);
      OnlyWriter(form, order, i);
      FilterLast(form, order, i);
    }
  }

  /** A parameter whose key no other parameter writes is its key's last
      writer. */
  lemma OnlyWriter(form: Form, order: seq<string>, i: nat)
    requires Enumerates(order, form)
    requires i < |order|
    requires order[i] == IdKey ==> IdParam !in form
    requires order[i] == IdParam ==> IdKey !in form
    ensures LastWriter(order, i)
  {
    forall j | i < j < |order|
      ensures Target(order[j]) != Target(order[i])
    {
      assert order[j] != order[i];
    }
  }

  /** Every key of the filter comes from the form. */
  lemma FilterKeys(form: Form, order: seq<string>)
    requires WellFormed(form) && Enumerates(order, form)
    ensures var r := BuildFilter(form, order);
      forall k :: k in r ==> (k == IdKey && IdParam in form) || (k in form && k != IdParam)
  {
    var r := BuildFilter(form, order);
    forall k | k in r
      ensures (k == IdKey && IdParam in form) || (k in form && k != IdParam)
    {
      var i := FilterSource(form, order, k);
    }
  }

  /** The position of a name the order lists. */
  function IndexOf(order: seq<string>, f: string): (i: nat)
    requires f in order
    ensures i < |order| && order[i] == f
  {
    if order[0] == f then 0 else 1 + IndexOf(order[1..], f)
  }

  /** Unless both `id` and `_id` are given, the filter does not depend on the
      order in which the parameters are visited. */
  lemma FilterOrderIrrelevant(form: Form, o1: seq<string>, o2: seq<string>)
    requires WellFormed(form) && Enumerates(o1, form) && Enumerates(o2, form)
    requires !(IdParam in form && IdKey in form)
    ensures BuildFilter(form, o1) == BuildFilter(form, o2)
  {
    var r1 := BuildFilter(form, o1);
    var r2 := BuildFilter(form, o2);
    FilterFields(form, o1);
    FilterFields(form, o2);
    assert r1.Keys == r2.Keys by {
      forall k | k in r1
        ensures k in r2
      {
        if k == IdKey && IdParam in form {
        } else {
          assert k in form;
        }
      }
      forall k | k in r2
        ensures k in r1
      {
        if k == IdKey && IdParam in form {
        } else {
          assert k in form;
        }
      }
    }
  }

  /** With both `id` and `_id` given, `_id` gets the rule of whichever the
      loop visits last. */
  lemma IdCollision(form: Form, order: seq<string>)
    requires WellFormed(form) && Enumerates(order, form)
    requires IdParam in form && IdKey in form
    ensures var r := BuildFilter(form, order);
      var last := if IndexOf(order, IdParam) > IndexOf(order, IdKey) then IdParam else IdKey;
      IdKey in r && r[IdKey] == RuleFor(form, last)
  {
    var a := IndexOf(order, IdParam);
    var b := IndexOf(order, IdKey);
    var i := if a > b then a else b;
    FilterLast(form, order, i);
  }

  /** One entry of the sort specification: `(field, 1)` or `(field, -1)`. */
  datatype SortKey = SortKey(field: string, direction: int)

  /** The time fields sorted newest first. */
  const NewestFirst: set<string> := {"createTime", "receiveTime", "lastReceiveTime"}

  function Direction(field: string): (d: int)
    ensures d == -1 || d == 1
    ensures d == -1 <==> field in NewestFirst
  {
    if field in NewestFirst then -1 else 1
  }

  /** Lines 157-161: one sort key per `sort-by` value, in order. */
  function SortKeys(fields: seq<string>): (keys: seq<SortKey>)
    ensures |keys| == |fields|
    ensures forall i :: 0 <= i < |fields| ==>
      keys[i].field == fields[i] && (keys[i].direction == -1 <==> fields[i] in NewestFirst)
      && (keys[i].direction == 1 <==> fields[i] !in NewestFirst)
  {
    if |fields| == 0 then []
    else SortKeys(fields[..|fields| - 1]) + [SortKey(fields[|fields| - 1], Direction(fields[|fields| - 1]))]
  }

  /** Lines 155-163: the given `sort-by` fields, or newest `lastReceiveTime`
      first when none is given. */
  function SortOrder(form: Form): (keys: seq<SortKey>)
    ensures "sort-by" !in form ==> keys == [SortKey(LastReceiveTime, -1)]
    ensures "sort-by" in form ==> |keys| == |form["sort-by"]|
    ensures "sort-by" in form ==> forall i :: 0 <= i < |keys| ==> keys[i].field == form["sort-by"][i]
  {
    if "sort-by" in form then SortKeys(form["sort-by"]) else [SortKey(LastReceiveTime, -1)]
  }

  /** Lines 138-141: details are hidden only when the first value is exactly
      `true`. */
  predicate HideDetails(form: Form)
    requires WellFormed(form)
  {
    "hide-alert-details" in form && form["hide-alert-details"][0] == "true"
  }

  /** Lines 143-146: `int()` of the first `limit` value, 0 (no limit) when
      absent; `None` when `int()` raises. */
  function Limit(form: Form): (n: Option<int>)
    requires WellFormed(form)
    ensures "limit" !in form ==> n == Some(0)
    ensures "limit" in form ==> n == ParseInt(form["limit"][0])
  {
    if "limit" in form then ParseInt(form["limit"][0]) else Some(0)
  }

  /** Why building the list query raised. */
  datatype QueryError = BadLimit | BadFromDate

  /** Everything the list route hands the store, plus the details flag. */
  datatype ListQuery = ListQuery(filter: Filter, sort: seq<SortKey>, limit: int, hideDetails: bool)

  /** Lines 123-163. `parseDate` stands for the `strptime` call on the first
      `from-date` value (`None` when it raises) and `now` for `utcnow()`. A
      `from-date` replaces any user filter on `lastReceiveTime` with the
      half-open range `[from, now)`. */
  function BuildListQuery(form: Form, order: seq<string>, parseDate: string -> Option<DateTime>,
                          now: DateTime): (r: Result<ListQuery, QueryError>)
    requires WellFormed(form) && Enumerates(order, form)
    ensures r.Fail? <==>
      Limit(form).None? || ("from-date" in form && parseDate(form["from-date"][0]).None?)
    ensures r.Fail? && Limit(form).None? ==> r.error == BadLimit
    ensures r.Fail? && Limit(form).Some? ==> r.error == BadFromDate
    ensures r.Ok? ==> r.value.limit == Limit(form).value
    ensures r.Ok? ==> r.value.hideDetails == HideDetails(form)
    ensures r.Ok? ==> r.value.sort == SortOrder(form)
    ensures r.Ok? && "from-date" in form ==>
      r.value.filter.Keys == BuildFilter(form, order).Keys + {LastReceiveTime}
    ensures r.Ok? && "from-date" in form ==>
      r.value.filter[LastReceiveTime] == Between(parseDate(form["from-date"][0]).value, now)
    ensures r.Ok? && "from-date" in form ==>
      forall k :: k in BuildFilter(form, order) && k != LastReceiveTime ==>
        r.value.filter[k] == BuildFilter(form, order)[k]
    ensures r.Ok? && "from-date" !in form ==> r.value.filter == BuildFilter(form, order)
  {
    var filter := BuildFilter(form, order);
    var hidden := HideDetails(form);
    var limit := Limit(form);
    if limit.None? then Fail(BadLimit)
    else if "from-date" !in form then Ok(ListQuery(filter, SortOrder(form), limit.value, hidden))
    else
      var start := parseDate(form["from-date"][0]);
      if start.None? then Fail(BadFromDate)
      else Ok(ListQuery(filter[LastReceiveTime := Between(start.value, now)], SortOrder(form), limit.value, hidden))
  }
}

=== FILE: routing.dfy ===
/** Request classification: the `_method` override and the five URL
    patterns of `alert-dbapi.py`, matched against `METHOD path`. */
module Routing {
  import opened Wrappers
  import opened Text
  import opened Values

  const ListPath := "/alerta/api/v1/alerts"
  const AlertPath := "/alerta/api/v1/alerts/alert/"
  const TagSuffix := "/tag"

  /** The literal text in front of each pattern's capture group. */
  const SingleGetLead := "GET " + AlertPath
  const ListLead := "GET " + ListPath
  const FieldPutLead := "PUT " + AlertPath
  const DeleteLead := "DELETE " + AlertPath

  /** The character class `[a-z0-9-]` of the GET and PUT id groups. */
  predicate IsIdChar(c: char) {
    IsLower(c) || IsDigit(c) || c == '-'
  }

  /** A text the group `[a-z0-9-]+` can capture. */
  predicate IsId(x: string) {
    |x| > 0 && forall i :: 0 <= i < |x| ==> IsIdChar(x[i])
  }

  /** A text the group `\S+` of the DELETE pattern can capture. */
  predicate IsWord(x: string) {
    |x| > 0 && forall i :: 0 <= i < |x| ==> !IsSpace(x[i])
  }

  /** What `re.search(r'<x>$', s)` means for a pattern whose match text is
      `x`: the match may start anywhere, and Python's `$` matches at the end
      of the string or just before a final newline. */
  ghost predicate EndMatch(s: string, x: string) {
    exists i :: 0 <= i <= |s| && (s[i..] == x || s[i..] == x + "\n")
  }

  /** The request without the one final newline `$` may step over. */
  function Trimmed(s: string): (t: string)
    ensures |t| > 0 ==> t[|t| - 1] != '\n' || |s| > |t|
  {
    if |s| > 0 && s[|s| - 1] == '\n' then s[..|s| - 1] else s
  }

  /** The last whitespace-free run of the trimmed request: where every
      pattern's path and capture group must lie. */
  function Word(s: string): (w: string)
    ensures forall i :: 0 <= i < |w| ==> !IsSpace(w[i])
  {
    LastWord(Trimmed(s))
  }

  /** Everything in front of `Word(s)`. */
  function Head(s: string): (h: string)
    ensures Trimmed(s) == h + Word(s)
  {
    var t := Trimmed(s);
    var w := LastWord(t);
    assert t == t[..|t| - |w|] + w;
    t[..|t| - |w|]
  }

  /** `<verb>/alerta/api/v1/alerts/alert/(?P<id>[a-z0-9-]+)$`: the shape the
      single GET and the field PUT share. */
  function MatchAlertId(s: string, verb: string): (id: Option<string>)
    ensures id.Some? ==> IsId(id.value)
  {
    var w := Word(s);
    if EndsWith(Head(s), verb) && StartsWith(w, AlertPath) && IsId(w[|AlertPath|..])
    then Some(w[|AlertPath|..]) else None
  }

  /** `GET /alerta/api/v1/alerts/alert/(?P<id>[a-z0-9-]+)$` */
  function MatchSingleGet(s: string): Option<string> {
    MatchAlertId(s, "GET ")
  }

  /** `GET /alerta/api/v1/alerts$` */
  predicate MatchList(s: string) {
    EndsWith(Head(s), "GET ") && Word(s) == ListPath
  }

  /** `PUT /alerta/api/v1/alerts/alert/(?P<id>[a-z0-9-]+)$` */
  function MatchFieldPut(s: string): Option<string> {
    MatchAlertId(s, "PUT ")
  }

  /** `PUT /alerta/api/v1/alerts/alert/(?P<id>[a-z0-9-]+)/tag$` */
  function MatchTagPut(s: string): (id: Option<string>)
    ensures id.Some? ==> IsId(id.value)
  {
    var w := Word(s);
    if EndsWith(Head(s), "PUT ") && StartsWith(w, AlertPath) && EndsWith(w, TagSuffix)
       && |w| >= |AlertPath| + |TagSuffix| && IsId(w[|AlertPath|..|w| - |TagSuffix|])
    then Some(w[|AlertPath|..|w| - |TagSuffix|]) else None
  }

  /** `DELETE /alerta/api/v1/alerts/alert/(?P<id>\S+)$`: the id may hold `/`. */
  function MatchDelete(s: string): (id: Option<string>)
    ensures id.Some? ==> IsWord(id.value)
  {
    var w := Word(s);
    if EndsWith(Head(s), "DELETE ") && StartsWith(w, AlertPath) && |w| > |AlertPath|
    then Some(w[|AlertPath|..]) else None
  }

  /** A hit for `x$` leaves `x` at the end of the trimmed request. */
  lemma HitTrimmed(s: string, x: string, i: nat)
    requires |x| > 0 && x[|x| - 1] != '\n'
    requires i <= |s| && (s[i..] == x || s[i..] == x + "\n")
    ensures EndsWith(Trimmed(s), x)
  {
    if s[i..] == x {
      assert s[|s| - 1] == s[i..][|x| - 1] == x[|x| - 1];
      assert Trimmed(s) == s;
    } else {
      assert s[|s| - 1] == s[i..][|x|] == '\n';
      var t := s[..|s| - 1];
      assert Trimmed(s) == t;
      assert t[i..] == s[i..][..|x|] == x;
    }
  }

  /** An `x` at the end of the trimmed request is a hit for `x$`. */
  lemma TrimmedHit(s: string, x: string)
    requires EndsWith(Trimmed(s), x)
    ensures EndMatch(s, x)
  {
    var t := Trimmed(s);
    var i := |t| - |x|;
    if t == s {
      assert s[i..] == x;
    } else {
      assert s == t + "\n";
      assert s[i..] == t[i..] + "\n";
    }
  }

  /** A search for `x$` hits exactly when the trimmed request ends with `x`,
      for any `x` that does not itself end in a newline. */
  lemma EndMatchTrimmed(s: string, x: string)
    requires |x| > 0 && x[|x| - 1] != '\n'
    ensures EndMatch(s, x) <==> EndsWith(Trimmed(s), x)
  {
    if EndMatch(s, x) {
      var i :| 0 <= i <= |s| && (s[i..] == x || s[i..] == x + "\n");
      HitTrimmed(s, x, i);
    }
    if EndsWith(Trimmed(s), x) {
      TrimmedHit(s, x);
    }
  }

  /** The pieces of a text ending in `verb word`: `word` at the very end,
      `verb` just before it. */
  lemma SuffixPieces(t: string, verb: string, word: string)
    requires EndsWith(t, verb + word)
    ensures EndsWith(t, word)
    ensures EndsWith(t[..|t| - |word|], verb)
  {
    var x := verb + word;
    var tail := t[|t| - |x|..];
    assert t[|t| - |word|..] == tail[|verb|..] == x[|verb|..] == word;
    var h := t[..|t| - |word|];
    assert h[|h| - |verb|..] == tail[..|verb|] == x[..|verb|] == verb;
  }

  /** A text ending in `verb word`, the verb ending in a space and the word
      whitespace-free, has `word` as its last word and `verb` just before. */
  lemma SuffixSplits(t: string, verb: string, word: string)
    requires |verb| > 0 && verb[|verb| - 1] == ' '
    requires IsWord(word)
    requires EndsWith(t, verb + word)
    ensures LastWord(t) == word
    ensures EndsWith(t[..|t| - |word|], verb)
  {
    SuffixPieces(t, verb, word);
    var h := t[..|t| - |word|];
    assert t[|t| - |word| - 1] == h[|h| - 1] == verb[|verb| - 1];
    LastWordUnique(t, word);
  }

  /** The converse: a last word `word` after a head ending in `verb`. */
  lemma SplitJoins(t: string, h: string, verb: string, word: string)
    requires t == h + word
    requires EndsWith(h, verb)
    ensures EndsWith(t, verb + word)
  {
    assert t[|t| - |verb + word|..] == h[|h| - |verb|..] + word;
  }

  /** For a pattern `verb word$` whose verb ends in a space and whose word is
      whitespace-free, the search hits exactly when the request's last word
      is `word` and what precedes it ends with `verb`. */
  lemma SplitAtWord(s: string, verb: string, word: string)
    requires |verb| > 0 && verb[|verb| - 1] == ' '
    requires IsWord(word)
    ensures EndMatch(s, verb + word) <==> Word(s) == word && EndsWith(Head(s), verb)
  {
    var x := verb + word;
    var t := Trimmed(s);
    assert x[|x| - 1] == word[|word| - 1];
    EndMatchTrimmed(s, x);
    if EndsWith(t, x) {
      SuffixSplits(t, verb, word);
    }
    if Word(s) == word && EndsWith(Head(s), verb) {
      SplitJoins(t, Head(s), verb, word);
    }
  }

  lemma AlertPathIsWord()
    ensures forall i :: 0 <= i < |AlertPath| ==> !IsSpace(AlertPath[i])
    ensures forall i :: 0 <= i < |ListPath| ==> !IsSpace(ListPath[i])
  {
  }

  /** An id of `[a-z0-9-]+` holds no whitespace. */
  lemma IdIsWord(id: string)
    requires IsId(id)
    ensures IsWord(id)
  {
    forall i | 0 <= i < |id|
      ensures !IsSpace(id[i])
    {
      assert IsIdChar(id[i]);
    }
  }

  /** The alert path followed by a whitespace-free id is whitespace-free. */
  lemma AlertPathWord(id: string)
    requires IsWord(id)
    ensures IsWord(AlertPath + id)
  {
    var word := AlertPath + id;
    AlertPathIsWord();
    forall i | 0 <= i < |word|
      ensures !IsSpace(word[i])
    {
      if i < |AlertPath| {
        assert word[i] == AlertPath[i];
      } else {
        assert word[i] == id[i - |AlertPath|];
      }
    }
  }

  /** How an alert path decomposes around its id. */
  lemma AlertWord(w: string, id: string)
    ensures w == AlertPath + id <==> StartsWith(w, AlertPath) && w[|AlertPath|..] == id
  {
    if StartsWith(w, AlertPath) {
      assert w == w[..|AlertPath|] + w[|AlertPath|..];
    }
  }

  /** The id matcher captures `id` exactly when the search finds the verb,
      the alert path and `id` at the end, `id` in `[a-z0-9-]+`. */
  lemma AlertIdRoute(s: string, verb: string, id: string)
    requires |verb| > 0 && verb[|verb| - 1] == ' '
    ensures MatchAlertId(s, verb) == Some(id) <==> IsId(id) && EndMatch(s, verb + AlertPath + id)
  {
    if IsId(id) {
      IdIsWord(id);
      AlertPathWord(id);
      assert verb + AlertPath + id == verb + (AlertPath + id);
      SplitAtWord(s, verb, AlertPath + id);
      AlertWord(Word(s), id);
    }
  }

  /** The single-GET matcher captures `id` exactly when the regular
      expression finds `GET /alerta/api/v1/alerts/alert/<id>` at the end. */
  lemma SingleGetRoute(s: string, id: string)
    ensures MatchSingleGet(s) == Some(id) <==> IsId(id) && EndMatch(s, SingleGetLead + id)
  {
    AlertIdRoute(s, "GET ", id);
  }

  /** The list matcher fires exactly when the search finds
      `GET /alerta/api/v1/alerts` at the end. */
  lemma ListRoute(s: string)
    ensures MatchList(s) <==> EndMatch(s, ListLead)
  {
    AlertPathIsWord();
    SplitAtWord(s, "GET ", ListPath);
  }

  /** The field-PUT matcher captures `id` exactly when the search finds
      `PUT /alerta/api/v1/alerts/alert/<id>` at the end. */
  lemma FieldPutRoute(s: string, id: string)
    ensures MatchFieldPut(s) == Some(id) <==> IsId(id) && EndMatch(s, FieldPutLead + id)
  {
    AlertIdRoute(s, "PUT ", id);
  }

  /** How a tag path decomposes around its id. */
  lemma TagWord(w: string, id: string)
    ensures w == AlertPath + id + TagSuffix <==>
      && StartsWith(w, AlertPath) && EndsWith(w, TagSuffix)
      && |w| >= |AlertPath| + |TagSuffix| && w[|AlertPath|..|w| - |TagSuffix|] == id
  {
    if StartsWith(w, AlertPath) && EndsWith(w, TagSuffix) && |w| >= |AlertPath| + |TagSuffix| {
      assert w == w[..|AlertPath|] + w[|AlertPath|..|w| - |TagSuffix|] + w[|w| - |TagSuffix|..];
    }
  }

  lemma TagPathIsWord(id: string)
    requires IsId(id)
    ensures IsWord(AlertPath + id + TagSuffix)
  {
    var word := AlertPath + id + TagSuffix;
    AlertPathIsWord();
    assert forall i :: 0 <= i < |TagSuffix| ==> !IsSpace(TagSuffix[i]);
    forall i | 0 <= i < |word|
      ensures !IsSpace(word[i])
    {
      if i < |AlertPath| {
        assert word[i] == AlertPath[i];
      } else if i < |AlertPath| + |id| {
        assert word[i] == id[i - |AlertPath|];
      } else {
        assert word[i] == TagSuffix[i - |AlertPath| - |id|];
      }
    }
  }

  /** The tag matcher captures `id` exactly when the search finds
      `PUT /alerta/api/v1/alerts/alert/<id>/tag` at the end. */
  lemma TagPutRoute(s: string, id: string)
    ensures MatchTagPut(s) == Some(id) <==> IsId(id) && EndMatch(s, FieldPutLead + id + TagSuffix)
  {
    if IsId(id) {
      TagPathIsWord(id);
      var word := AlertPath + id + TagSuffix;
      assert FieldPutLead + id + TagSuffix == "PUT " + word;
      SplitAtWord(s, "PUT ", word);
      TagMatchIsWord(s, id);
    }
  }

  /** The tag matcher's decision, in terms of the request's last word. */
  lemma TagMatchIsWord(s: string, id: string)
    requires IsId(id)
    ensures MatchTagPut(s) == Some(id) <==>
      Word(s) == AlertPath + id + TagSuffix && EndsWith(Head(s), "PUT ")
  {
    TagWord(Word(s), id);
  }

  /** The DELETE matcher captures `id` exactly when the search finds
      `DELETE /alerta/api/v1/alerts/alert/<id>` at the end, `id` free of
      whitespace. */
  lemma DeleteRoute(s: string, id: string)
    ensures MatchDelete(s) == Some(id) <==> IsWord(id) && EndMatch(s, DeleteLead + id)
  {
    if IsWord(id) {
      AlertPathWord(id);
      assert DeleteLead + id == "DELETE " + (AlertPath + id);
      SplitAtWord(s, "DELETE ", AlertPath + id);
      AlertWord(Word(s), id);
    }
  }

  /** At most one of the five patterns matches any request, so the source's
      five independent `if m:` blocks never both run. */
  lemma RoutesExclusive(s: string)
    ensures MatchSingleGet(s).Some? ==>
      !MatchList(s) && MatchFieldPut(s).None? && MatchTagPut(s).None? && MatchDelete(s).None?
    ensures MatchList(s) ==>
      MatchFieldPut(s).None? && MatchTagPut(s).None? && MatchDelete(s).None?
    ensures MatchFieldPut(s).Some? ==> MatchTagPut(s).None? && MatchDelete(s).None?
    ensures MatchTagPut(s).Some? ==> MatchDelete(s).None?
  {
    VerbsDiffer(Head(s));
    TagIsNotField(Word(s));
  }

  /** No text ends with two of the verbs `GET `, `PUT ` and `DELETE `. */
  lemma VerbsDiffer(h: string)
    ensures !(EndsWith(h, "GET ") && EndsWith(h, "PUT "))
    ensures !(EndsWith(h, "GET ") && EndsWith(h, "DELETE "))
    ensures !(EndsWith(h, "PUT ") && EndsWith(h, "DELETE "))
  {
  }

  /** A path ending in `/tag` after a non-empty id is not a field-PUT path:
      the id class has no `/`. */
  lemma TagIsNotField(w: string)
    ensures StartsWith(w, AlertPath) && EndsWith(w, TagSuffix) && |w| > |AlertPath| + |TagSuffix|
      ==> !IsId(w[|AlertPath|..])
  {
    if StartsWith(w, AlertPath) && EndsWith(w, TagSuffix) && |w| > |AlertPath| + |TagSuffix| {
      var k := |w| - |TagSuffix|;
      assert w[k] == TagSuffix[0];
      assert w[|AlertPath|..][k - |AlertPath|] == w[k];
    }
  }

  /** The body field naming the method a POST-only client meant. */
  const MethodField := "_method"

  /** Lines 58-67: a PUT or POST request whose JSON body carries `_method`
      takes its upper-cased value as the method. `data` is `None` when the
      body was never read. A `_method` that is not a string makes `.upper()`
      raise: `None`. */
  function Override(verb: string, data: Option<Body>): (r: Option<string>)
    ensures (data.None? || data.value.Unparsable? || MethodField !in data.value.fields) ==> r == Some(verb)
    ensures data.Some? && data.value.Object? && MethodField in data.value.fields ==>
      match data.value.fields[MethodField]
      case Str(m) => r.Some? && |r.value| == |m| && forall i :: 0 <= i < |m| ==> r.value[i] == UpperChar(m[i])
      case _ => r.None?
  {
    match data
    case Some(Object(fields)) =>
      if MethodField in fields then
        match fields[MethodField]
        case Str(m) => Some(Upper(m))
        case _ => None
      else Some(verb)
    case _ => Some(verb)
  }

  /** Only PUT and POST requests have their body read. */
  function ReadBody(verb: string, body: Body): (data: Option<Body>)
    ensures data.Some? <==> verb == "PUT" || verb == "POST"
    ensures data.Some? ==> data.value == body
  {
    if verb == "PUT" || verb == "POST" then Some(body) else None
  }
}

=== FILE: store.dfy ===
/** The `alerts` collection as a map from alert id to document, and the
    three modifiers the API sends it: `$set` (line 249), `$push` of a history
    entry (line 257) and `$push` of tags (line 307), plus `remove` (line 326)
    and the projected `find_one` (line 260). */
module Store {
  import opened Wrappers
  import opened Values

  /** The collection: the document stored under each `_id`. */
  type Alerts = map<string, Doc>

  const HistoryField := "history"

  /** What every stored alert carries: its own id under `_id`, and the
      `status`, `severity` and `type` fields the API reads without checking. */
  predicate WfAlert(id: string, d: Doc) {
    && StoreKey in d && d[StoreKey] == Str(id)
    && "status" in d && "severity" in d && "type" in d
  }

  predicate Wf(db: Alerts) {
    forall id :: id in db ==> WfAlert(id, db[id])
  }

  /** Why the store refused a modifier; with `safe=True` the driver raises. */
  datatype Refusal =
    | ModifiesId   // a modifier touching `_id`
    | NotAnArray   // `$push` onto a field that is not an array

  /** `{'$set': update}` applied to one document: each body key overwrites
      or adds its field. */
  function SetFields(d: Doc, update: Doc): (r: Result<Doc, Refusal>)
    ensures r.Fail? <==> StoreKey in update
    ensures r.Ok? ==> r.value.Keys == d.Keys + update.Keys
    ensures r.Ok? ==> forall k :: k in update ==> r.value[k] == update[k]
    ensures r.Ok? ==> forall k :: k in d && k !in update ==> r.value[k] == d[k]
  {
    if StoreKey in update then Fail(ModifiesId) else Ok(d + update)
  }

  /** Setting the same fields twice is setting them once. */
  lemma SetIdempotent(d: Doc, update: Doc)
    requires StoreKey !in update
    ensures SetFields(SetFields(d, update).value, update) == SetFields(d, update)
  {
    var once := SetFields(d, update).value;
    assert once + update == once;
  }

  /** One `$push` onto one field: an absent field becomes a one-element
      array, an array grows by the value at its end, anything else is
      refused. */
  function PushOne(d: Doc, field: string, v: Value): (r: Result<Value, Refusal>)
    ensures field !in d ==> r == Ok(Arr([v]))
    ensures field in d && d[field].Arr? ==> r == Ok(Arr(d[field].items + [v]))
    ensures field in d && !d[field].Arr? ==> r == Fail(NotAnArray)
  {
    if field !in d then Ok(Arr([v]))
    else match d[field]
      case Arr(items) => Ok(Arr(items + [v]))
      case _ => Fail(NotAnArray)
  }

  /** Line 257: `{'$push': {'history': entry}}` without `safe=True`: when the
      store refuses (a `history` that is not an array) nothing changes and
      nobody is told. */
  function PushHistory(d: Doc, entry: Value): (r: Doc)
    ensures r.Keys == d.Keys + {HistoryField}
    ensures forall k :: k in d && k != HistoryField ==> r[k] == d[k]
    ensures HistoryField !in d ==> r[HistoryField] == Arr([entry])
    ensures HistoryField in d && d[HistoryField].Arr? ==>
      r[HistoryField] == Arr(d[HistoryField].items + [entry])
    ensures HistoryField in d && !d[HistoryField].Arr? ==> r == d
  {
    match PushOne(d, HistoryField, entry)
    case Ok(h) => d[HistoryField := h]
    case Fail(_) => d
  }

  /** A tag push refused somewhere: it names `_id` or a field that is not an
      array. */
  predicate TagsRefused(d: Doc, tags: Doc) {
    StoreKey in tags || exists k :: k in tags && k in d && !d[k].Arr?
  }

  /** Line 307: `{'$push': tags}`: every field the body names gets the body's
      value appended; the store applies all or nothing. */
  function PushTags(d: Doc, tags: Doc): (r: Result<Doc, Refusal>)
    ensures r.Fail? <==> TagsRefused(d, tags)
    ensures r.Ok? ==> r.value.Keys == d.Keys + tags.Keys
    ensures r.Ok? ==> forall k :: k in d && k !in tags ==> r.value[k] == d[k]
    ensures r.Ok? ==> forall k :: k in tags ==> PushOne(d, k, tags[k]) == Ok(r.value[k])
  {
    if StoreKey in tags then Fail(ModifiesId)
    else if exists k :: k in tags && k in d && !d[k].Arr? then Fail(NotAnArray)
    else
      Ok(map k | k in d.Keys + tags.Keys ::
           if k !in tags then d[k] else PushOne(d, k, tags[k]).value)
  }

  /** Line 260: `find_one({'_id': id}, {'_id': 0, 'history': 0})` with
      `id` added back at line 270: the document the notification carries. */
  function Projected(d: Doc, id: string): (r: Doc)
    ensures StoreKey !in r && HistoryField !in r
    ensures PublicKey in r && r[PublicKey] == Str(id)
    ensures forall k :: k in d && k != StoreKey && k != HistoryField && k != PublicKey ==>
      k in r && r[k] == d[k]
    ensures forall k :: k in r ==> k == PublicKey || k in d
  {
    (d - {StoreKey, HistoryField})[PublicKey := Str(id)]
  }

  /** The effect on the collection of the field PUT's `$set`: the alert
      under `id` is modified when it exists; the flag is the reply's
      `updatedExisting`. */
  function SetAlert(db: Alerts, id: string, update: Doc): (r: Result<(Alerts, bool), Refusal>)
    ensures r.Fail? <==> id in db && StoreKey in update
    ensures r.Ok? ==> (r.value.1 <==> id in db)
    ensures r.Ok? && id !in db ==> r.value.0 == db
    ensures r.Ok? && id in db ==> r.value.0 == db[id := SetFields(db[id], update).value]
  {
    if id !in db then Ok((db, false))
    else match SetFields(db[id], update)
      case Ok(d) => Ok((db[id := d], true))
      case Fail(e) => Fail(e)
  }

  /** `$set` keeps the collection well formed: `_id` is refused, and no
      field is ever removed. */
  lemma SetKeepsWf(db: Alerts, id: string, update: Doc)
    requires Wf(db)
    requires SetAlert(db, id, update).Ok?
    ensures Wf(SetAlert(db, id, update).value.0)
  {
  }

  /** The history push applied to the collection. */
  function PushHistoryAlert(db: Alerts, id: string, entry: Value): (r: Alerts)
    ensures r.Keys == db.Keys
    ensures forall k :: k in db && k != id ==> r[k] == db[k]
    ensures id in db ==> r[id] == PushHistory(db[id], entry)
  {
    if id in db then db[id := PushHistory(db[id], entry)] else db
  }

  lemma PushHistoryKeepsWf(db: Alerts, id: string, entry: Value)
    requires Wf(db)
    ensures Wf(PushHistoryAlert(db, id, entry))
  {
  }

  /** The tag push applied to the collection; an absent id matches nothing
      and changes nothing. */
  function PushTagsAlert(db: Alerts, id: string, tags: Doc): (r: Result<Alerts, Refusal>)
    ensures r.Fail? <==> id in db && TagsRefused(db[id], tags)
    ensures r.Ok? && id !in db ==> r.value == db
    ensures r.Ok? && id in db ==> r.value == db[id := PushTags(db[id], tags).value]
  {
    if id !in db then Ok(db)
    else match PushTags(db[id], tags)
      case Ok(d) => Ok(db[id := d])
      case Fail(e) => Fail(e)
  }

  lemma PushTagsKeepsWf(db: Alerts, id: string, tags: Doc)
    requires Wf(db)
    requires PushTagsAlert(db, id, tags).Ok?
    ensures Wf(PushTagsAlert(db, id, tags).value)
  {
    if id in db {
      var d := db[id];
      var r := PushTags(d, tags).value;
      assert r[StoreKey] == d[StoreKey];
    }
  }

  /** Line 326: `remove({'_id': id})`. */
  function Remove(db: Alerts, id: string): (r: Alerts)
    ensures id !in r
    ensures r.Keys == db.Keys - {id}
    ensures forall k :: k in r ==> r[k] == db[k]
  {
    db - {id}
  }

  lemma RemoveKeepsWf(db: Alerts, id: string)
    requires Wf(db)
    ensures Wf(Remove(db, id))
  {
  }
}

=== FILE: text.dfy ===
/** Character classes and affix helpers on strings, as the source's regular
    expressions and Python's `str` methods see them (ASCII only). */
module Text {

  /** The characters Python 2 treats as whitespace in a byte string: the
      class `\s` of a non-Unicode regular expression, and what `int()` and
      `str.strip()` skip. */
  predicate IsSpace(c: char) {
    c == ' ' || c == '\t' || c == '\n' || c == '\r' || c == '\U{000B}' || c == '\U{000C}'
  }

  predicate IsDigit(c: char) {
    '0' <= c <= '9'
  }

  predicate IsLower(c: char) {
    'a' <= c <= 'z'
  }

  predicate StartsWith(s: string, prefix: string) {
    |prefix| <= |s| && s[..|prefix|] == prefix
  }

  predicate EndsWith(s: string, suffix: string) {
    |suffix| <= |s| && s[|s| - |suffix|..] == suffix
  }

  /** `c.upper()` on one ASCII character. */
  function UpperChar(c: char): (u: char)
    ensures IsLower(c) ==> u as int == c as int - 32
    ensures !IsLower(c) ==> u == c
    ensures !IsLower(u)
  {
    if IsLower(c) then (c as int - 32) as char else c
  }

  /** `s.upper()`, restricted to the ASCII letters. */
  function Upper(s: string): (u: string)
    ensures |u| == |s|
    ensures forall i :: 0 <= i < |s| ==> u[i] == UpperChar(s[i])
  {
    if |s| == 0 then "" else Upper(s[..|s| - 1]) + [UpperChar(s[|s| - 1])]
  }

  /** The longest suffix of `s` made of non-whitespace characters: the text
      after the last whitespace character. */
  function LastWord(s: string): (w: string)
    ensures EndsWith(s, w)
    ensures forall i :: 0 <= i < |w| ==> !IsSpace(w[i])
    ensures |w| < |s| ==> IsSpace(s[|s| - |w| - 1])
  {
    if |s| == 0 || IsSpace(s[|s| - 1]) then ""
    else
      var w' := LastWord(s[..|s| - 1]);
      assert s[..|s| - 1][|s| - 1 - |w'|..] == s[|s| - 1 - |w'|..|s| - 1];
      w' + [s[|s| - 1]]
  }

  /** A whitespace-free suffix that follows a whitespace character (or the
      start of the string) is exactly the last word. */
  lemma LastWordUnique(s: string, w: string)
    requires EndsWith(s, w)
    requires forall i :: 0 <= i < |w| ==> !IsSpace(w[i])
    requires |w| < |s| ==> IsSpace(s[|s| - |w| - 1])
    ensures LastWord(s) == w
  {
  }
}

=== FILE: values.dfy ===
/** The JSON/BSON values the API moves between the store, request bodies and
    responses. */
module Values {
  import opened Dates

  /** A document field value as the API sees it. Numbers are integers only. */
  datatype Value =
    | Null
    | Bool(b: bool)
    | Num(n: int)
    | Str(s: string)
    | Time(t: DateTime)
    | Arr(items: seq<Value>)
    | Obj(fields: map<string, Value>)

  /** A document: an alert as stored, a request body, a query result. */
  type Doc = map<string, Value>

  /** The decoded JSON body of a PUT or POST request. Only object bodies are
      modelled; `Unparsable` is a body `json.loads` rejected (an empty body
      included). */
  datatype Body = Unparsable | Object(fields: Doc)

  /** The store's primary-key field and the public name the API gives it. */
  const StoreKey := "_id"
  const PublicKey := "id"

  /** `alert['id'] = alert['_id']; del alert['_id']`: the store key is
      renamed, an existing `id` field is overwritten, nothing else moves. */
  function RenameId(d: Doc): (r: Doc)
    requires StoreKey in d
    ensures PublicKey in r && r[PublicKey] == d[StoreKey]
    ensures StoreKey !in r
    ensures forall k :: k in d && k != StoreKey && k != PublicKey ==> k in r && r[k] == d[k]
    ensures forall k :: k in r ==> k == PublicKey || k in d
  {
    (d - {StoreKey})[PublicKey := d[StoreKey]]
  }

  /** The inverse renaming, `id` back to `_id`. */
  function RestoreId(r: Doc): (d: Doc)
    requires PublicKey in r
  {
    (r - {PublicKey})[StoreKey := r[PublicKey]]
  }

  /** A stored document without an `id` field of its own survives the
      renaming unchanged: the rename loses nothing. */
  lemma RestoreRename(d: Doc)
    requires StoreKey in d && PublicKey !in d
    ensures RestoreId(RenameId(d)) == d
  {
    var back := RestoreId(RenameId(d));
    assert back.Keys == d.Keys;
  }
}

=== FILE: wrappers.dfy ===
/** Failure-carrying datatypes shared by the other modules. */
module Wrappers {

  /** A value that may be absent (Python's `None`). */
  datatype Option<+T> = None | Some(value: T)

  /** Either a value or the reason the computation stopped. */
  datatype Result<+T, +E> = Ok(value: T) | Fail(error: E)
}
